=== FILE: README.md ===
# Hydra consent persistence and OAuth2 grant store, modelled in Dafny

This project models two storage-rule components of the ORY Hydra OAuth2 / OpenID
Connect server and proves properties of them:

- **The consent persister** (`persistence/sql/persister_consent.go`). It covers:
  - the lifecycle of a login/consent *flow* as the persister sees it: the
    `CreateConsentRequest` state change, the tenant (network id, NID) and maximum-age
    checks on every decoded challenge, and the verify-and-invalidate paths;
  - the remembered-consent lookup;
  - the revocation cascade from consent flows to access and refresh token rows;
  - logout accept, reject and verify;
  - the login-session upsert and the forced-obfuscated subject records;
  - the batched flush of inactive flows.
- **The OAuth2 grant-session store** (`oauth2/fosite_store_sql.go`). It covers:
  - five grant tables (OpenID Connect, access, refresh, authorization code, PKCE),
    whose rows are keyed by a token signature that is re-hashed for JWT access tokens;
  - the `|`-joined scope and audience columns;
  - the lookup classification that tells a replayed authorization code from an
    ordinary inactive token (section 4.1.2 of RFC 6749 makes codes single-use);
  - the JWT ID replay blacklist for client assertions (the `jti` rule of section 3
    of RFC 7523).

Every operation is a pure function from a store and its arguments to a new store and
a result. The modelling choices:

- **Tables.** Consent tables are sequences of rows in storage order. Where the SQL
  takes `First` of an unordered or tied result, the model takes the first row in
  storage order. Grant tables are a map from (table, signature) to row. The JWT ID
  blacklist is a map from signature to expiry.
- **Time.** Time is an integer count of seconds (`now`), passed in. Integers are
  unbounded, except where Go's 64-bit arithmetic visibly wraps: the remember-for
  duration, converted to int64 nanoseconds, is wrapped explicitly.
- **Abstract functions.** The flow codec (`flowctx.Decode`), the flow's own
  transition methods, SHA-384 and the JWT ID signature are passed in as functions.
- **Errors.** Storage errors are translated once into the `Errors.Error` datatype.
- **NULL columns.** Nullable string columns use `""` for NULL, as `sqlxx.NullString`
  does. The two flow error columns are `Option<string>`, because the flush and the
  remembered-consent query read NULL, `'{}'` and `''` differently.

Files (one module each):
- `errors.dfy`: `Errors`.
- `scope_list.dfy`: `ScopeList`.
- `lex_order.dfy`: `LexOrder`, the `ORDER BY ... LIMIT` selection.
- `seq_filter.dfy`: `SeqFilter`.
- `consent_store.dfy`: `ConsentStore`, the rows.
- `consent_lifecycle.dfy`: `ConsentLifecycle`.
- `remembered_consent.dfy`: `RememberedConsent`.
- `revocation.dfy`: `Revocation`.
- `logout.dfy`: `Logout`.
- `login_sessions.dfy`: `LoginSessions`.
- `flush.dfy`: `FlowFlush`.
- `grant_store.dfy`: `GrantStore`.
- `jti_blacklist.dfy`: `JtiBlacklist`.

Three behaviours of the code are easy to miss:

- `VerifyAndInvalidateLogoutRequest` does not refuse a row already marked used. Its
  UPDATE filters only on accepted and not rejected, so a logout verifier can be
  replayed. `Logout.LogoutVerifierReplayAccepted` proves this.
- In `createSession`, only a concurrent-update conflict becomes
  `ErrSerializationFailure`. A duplicate signature stays a unique-violation error.
- `ClientAssertionJWTValid` compares expiries with the application clock, while the
  purge in `SetClientAssertionJWT` compares them with the database's `now()`. The
  model gives the two clocks separate parameters. Even when they agree, an entry
  expiring exactly now is valid to the check but not purged, so recording it reports
  `ErrJTIKnown` (`JtiBlacklist.ExpiryInstantDisagrees`). When the database clock is
  ahead, an ID the check still refuses can be recorded again
  (`JtiBlacklist.ClockSkewAdmitsReplay`).

The consent store's `TokenRow` and the grant store's rows describe the same
`hydra_oauth2_access` and `hydra_oauth2_refresh` tables. Each component sees only
the columns it uses, so the two models are kept separate and are not connected.

`ScopeList.Join` and `ScopeList.Split` stand for Go's `strings.Join` and
`strings.Split`. They are helpers; their properties are stated by
`ScopeList.SplitJoin`, `ScopeList.JoinSplit` and the round-trip lemmas.

## Model

| member | source | states |
|---|---|---|
| Errors.WriteError | oauth2/fosite_store_sql.go:325-334 | a failed write is reported as a serialization failure exactly when it was a concurrent-update conflict, and as a unique violation exactly when it hit an existing key |
| ScopeList.SplitxJoinRoundTrip | oauth2/fosite_store_sql.go:198-201 | for separator-free lists, reading back a joined column gives the original list exactly when the list is not `[""]`; the empty list is stored as "" and "" reads as the empty list |
| ScopeList.JoinSplitxRoundTrip | oauth2/fosite_store_sql.go:155-158 | every stored column is reproduced by reading it and joining again, and what is read is always an encodable list |
| ScopeList.Splitx | oauth2/fosite_store_sql.go:198-201 | a column reads as the empty list exactly when it is empty |
| ScopeList.SplitJoin | oauth2/fosite_store_sql.go:198-201 | splitting a join of a non-empty separator-free list gives back that list |
| ScopeList.JoinSplit | oauth2/fosite_store_sql.go:155-158 | joining the pieces of a split gives back the string |
| ScopeList.EmptyElementIsLost | oauth2/fosite_store_sql.go:155-158 | the one-element list holding "" is stored as "" and read back as the empty list |
| LexOrder.SmallestFirst | persistence/sql/persister_consent.go:860-861 | the selection is a strictly ordered sub-list of at most `limit` candidates, each no greater than any candidate left out; it is shorter than the limit only when it holds every candidate |
| ConsentLifecycle.CreateConsentRequest | persistence/sql/persister_consent.go:177-193 | NotFound exactly when the flow is missing, belongs to another login challenge or to another network; otherwise the state becomes ConsentInitialized, the consent id, skip, verifier and CSRF fields take the request's values, and no other field changes |
| ConsentLifecycle.CreateConsentRequestKeepsLoginRequest | persistence/sql/persister_consent.go:174-193 | the login request read from the updated flow equals the one read from the original flow |
| ConsentLifecycle.DecodeForNetwork | persistence/sql/persister_consent.go:200-206 | a flow exactly when the token decodes for the purpose into a flow of this network, and then the decoded flow |
| ConsentLifecycle.DecodeChallenge | persistence/sql/persister_consent.go:200-211 | success exactly when the token decodes for the purpose, into a flow of this network, not older than the maximum age; NotFound exactly when decoding or the network check fails; otherwise the kind-specific "request has expired" error |
| ConsentLifecycle.GetFlowByConsentChallenge | persistence/sql/persister_consent.go:196-212 | success exactly when the token decodes into a flow of this network within the maximum age, and then that flow is returned; an undecodable token or a foreign network gives exactly NotFound; otherwise the consent "request has expired" error |
| ConsentLifecycle.GetLoginRequest | persistence/sql/persister_consent.go:353-373 | success exactly when the token decodes into a flow of this network within the maximum age; the returned login request carries the challenge string passed in as its id and is otherwise the decoded flow's login request; NotFound exactly on decode failure or a network mismatch |
| ConsentLifecycle.GetDeviceUserAuthRequest | persistence/sql/persister_consent.go:242-258 | success exactly when the token decodes into a flow of this network within the maximum age, and then its device request is returned; NotFound exactly on decode failure or a network mismatch; otherwise expiry |
| ConsentLifecycle.VerifyAndInvalidateLoginRequest | persistence/sql/persister_consent.go:434-452 | success exactly when the verifier decodes into a flow of this network that accepts the transition, returning the transitioned flow; NotFound exactly for decode failure or another network, InvalidRequest otherwise |
| ConsentLifecycle.VerifyAndInvalidateDeviceUserAuthRequest | persistence/sql/persister_consent.go:280-297 | AccessDenied exactly when the verifier does not decode, NotFound exactly for a flow of another network, InvalidRequest when the flow refuses the transition, the transitioned flow otherwise |
| ConsentLifecycle.VerifyAndInvalidateConsentRequest | persistence/sql/persister_consent.go:392-413 | AccessDenied exactly when the verifier does not decode; NotFound exactly when it decodes into a flow of another network; InvalidRequest exactly when the flow of this network refuses the transition; a unique violation exactly when the transitioned flow's login challenge is already stored; success otherwise, appending the transitioned flow; every error leaves the store unchanged |
| ConsentLifecycle.ConsentVerifierIsOneShot | persistence/sql/persister_consent.go:405-407 | replaying a consent verifier against the store the first successful call produced fails with a unique violation |
| ConsentLifecycle.LoginChallengeExpires | persistence/sql/persister_consent.go:363-365 | a login challenge that was accepted is refused with the login "request has expired" error once the maximum age has passed |
| RememberedConsent.FilterExpiredConsentRequests | persistence/sql/persister_consent.go:694-707 | an order-preserving subsequence of the input that keeps a flow exactly when it is not expired under Go's int64 nanosecond duration; for a remember-for of at most 9,223,372,036 seconds, exactly when the remember-for is missing or not positive, or the requested time plus remember-for is not before now |
| RememberedConsent.WrapInt64 | persistence/sql/persister_consent.go:701 | the value lies in the int64 range, differs from the input by a multiple of 2^64, and equals the input when the input is in range |
| RememberedConsent.ExactRememberFor | persistence/sql/persister_consent.go:701 | for a remember-for of at most 9,223,372,036 seconds, the nanosecond expiry test agrees with the test on seconds |
| RememberedConsent.RememberForWraps | persistence/sql/persister_consent.go:701 | a consent remembered for 10^10 seconds and requested now is dropped as expired, because the duration wraps negative |
| RememberedConsent.Latest | persistence/sql/persister_consent.go:584-585 | a candidate whose requested time is not smaller than any other candidate's |
| RememberedConsent.FindGrantedAndRememberedConsentRequest | persistence/sql/persister_consent.go:572-597 | success gives a stored flow of this network, subject and client that is consent-used, not skipped, error-free (`'{}'`) and remembered, unexpired under Go's wrapped duration and with the latest requested time among such flows; failure is NoPreviousConsentFound, and then every such flow is matched by an at-least-as-recent expired one |
| RememberedConsent.LatestUnexpiredGrantIsFound | persistence/sql/persister_consent.go:577-596 | the unique most recent remembered grant, when unexpired, is the answer |
| RememberedConsent.ExpiredLatestHidesOlderGrant | persistence/sql/persister_consent.go:591-594 | when the most recent remembered grant has expired the lookup fails, even though an older one is unexpired |
| Revocation.ConsentIds | persistence/sql/persister_consent.go:59-73 | exactly the consent ids of the flows of this network that the WHERE clause selects |
| Revocation.RevokeConsentSession | persistence/sql/persister_consent.go:57-108 | the selected flows are gone; an access row, refresh row or flow is kept exactly when it is not of this network under one of their consent ids, so flows of this network under other ids survive; other networks' rows and the other tables are untouched; each table's survivors are an order-preserving subsequence of it, so no row is copied or added and unique login challenges stay unique; an empty match changes nothing |
| Revocation.RevokeSubjectConsentSession | persistence/sql/persister_consent.go:35-40 | every flow of the subject in this network that has a consent id is deleted; token rows and flows are removed exactly when of this network under a consent id of such a flow; the rest stay once each and in order, and nothing else changes |
| Revocation.RevokeSubjectClientConsentSession | persistence/sql/persister_consent.go:42-47 | every flow of the subject with the client that has a consent id is deleted; token rows and flows are removed exactly when of this network under a consent id of such a flow; a flow of another client survives unless it shares such an id; the rest stay once each and in order, and nothing else changes |
| Revocation.RevokeConsentSessionById | persistence/sql/persister_consent.go:49-55 | an empty id, or an id no flow of this network carries, changes nothing; otherwise no token row or flow of this network keeps that id, and rows under other ids or of other networks stay once each and in order |
| Revocation.ConsentIdsById | persistence/sql/persister_consent.go:49-55 | revoking by id reaches exactly that id when it is non-empty and carried by a flow of this network, and no id otherwise |
| Logout.Decide | persistence/sql/persister_consent.go:772 | rows with the challenge in this network get the accepted/rejected pair set to (a, not a); every other row is unchanged |
| Logout.MarkUsed | persistence/sql/persister_consent.go:806-817 | rows of this network with the verifier that are accepted and not rejected get the used flag; every other row is unchanged |
| Logout.GetLogoutRequest | persistence/sql/persister_consent.go:793-799 | never a rejected row; a stored row of this network with the challenge; NotFound exactly when every such row is rejected |
| Logout.AcceptLogoutRequest | persistence/sql/persister_consent.go:768-777 | rows with the challenge become accepted and not rejected; the result is such a row, and success holds exactly when a row with the challenge existed in this network; no other table changes; a row is never both accepted and rejected afterwards if none was before |
| Logout.RejectLogoutRequest | persistence/sql/persister_consent.go:779-791 | NotFound, with no change, exactly when no row of this network has the challenge; the store becomes exactly the one where those rows are rejected and not accepted, with every other row, field and table as before |
| Logout.VerifyAndInvalidateLogoutRequest | persistence/sql/persister_consent.go:801-834 | NotFound, with no change, exactly when no row of this network with the verifier is accepted and not rejected; otherwise exactly those rows get the used flag and no other table changes; the logout-expired error only when a row with the verifier has an expiry before now; success when no such row has, so a missing expiry never expires; failure when all have |
| Logout.MarkUsedKeepsExpiry | persistence/sql/persister_consent.go:806-817 | flagging rows as used keeps which rows carry a network and verifier, and their expiries |
| Logout.ReadBack | persistence/sql/persister_consent.go:819-831 | a row of this network with the verifier whose expiry has not passed, or the logout-expired error when such a row has expired |
| Logout.MarkUsedIdempotent | persistence/sql/persister_consent.go:806-817 | flagging the consumable rows as used a second time changes nothing |
| Logout.LogoutVerifierReplayAccepted | persistence/sql/persister_consent.go:806-817 | verifying a logout verifier again, at the same time, against the store the first call produced gives the same answer and the same store: a used verifier is accepted again |
| Logout.RejectedLogoutIsHidden | persistence/sql/persister_consent.go:783-798 | after a rejection the challenge can no longer be read and its verifier can no longer be consumed |
| LoginSessions.FindSession | persistence/sql/persister_consent.go:487-497 | the position of the session with the id, or none when no session has it |
| LoginSessions.ConfirmLoginSession | persistence/sql/persister_consent.go:474-510 | the session is stored stamped with this network and an expiry one lifespan from now, overwriting the row with its id; it fails with NotFound, changing nothing, exactly when the id is stored for another network; other sessions and the id's uniqueness are kept; no other table changes |
| LoginSessions.ConfirmLoginSessionIdempotent | persistence/sql/persister_consent.go:484-497 | confirming the same session twice at the same time leaves what one confirmation leaves |
| LoginSessions.CreateForcedObfuscatedLoginSession | persistence/sql/persister_consent.go:129-152 | afterwards the given record, stamped with this network, is the only record of the subject with the client; other records are kept once each and in order, followed by the new record; no other table changes |
| LoginSessions.GetForcedObfuscatedLoginSession | persistence/sql/persister_consent.go:154-171 | a stored record of this network for the client and obfuscated subject; NotFound exactly when there is none |
| LoginSessions.ObfuscatedSessionRoundTrip | persistence/sql/persister_consent.go:129-171 | a record just created is the one returned for its client and obfuscated subject, unless another subject shares that obfuscated value |
| FlowFlush.Cutoff | persistence/sql/persister_consent.go:843-847 | the cutoff is the smaller of `notAfter` and `now - maxAge` |
| FlowFlush.FlushableIds | persistence/sql/persister_consent.go:853-859 | exactly the login challenges of flows of this network requested before the cutoff that are not consent-used or carry an error other than NULL, `'{}'` or `''` |
| FlowFlush.DeleteChallenges | persistence/sql/persister_consent.go:884-888 | exactly the flows of this network whose login challenge is listed are removed; the rest stay once each and in order |
| FlowFlush.FlushInactiveLoginConsentRequests | persistence/sql/persister_consent.go:836-896 | a flow is deleted exactly when it is of this network and carries a selected challenge, and only flushable ones are when challenges are unique; each deleted challenge is no greater than any surviving flushable one; a flushable flow survives only when the selection reached the limit; the survivors are an order-preserving subsequence of the flows, so unique login challenges stay unique; the statement touches only the flow table |
| FlowFlush.DeleteInBatches | persistence/sql/persister_consent.go:878-893 | after all batches, a flow is gone exactly when it is of this network and its challenge is among the selected ones; the survivors are an order-preserving subsequence of the flows |
| ConsentStore.DeleteKeepsFlowIdsUnique | persistence/sql/persister_consent.go:884-888 | removing flows, keeping the rest in order, keeps login challenges unique |
| FlowFlush.DeleteChallengesCompose | persistence/sql/persister_consent.go:878-893 | two consecutive deletes remove what one delete of both lists removes |
| FlowFlush.DeleteInBatchesIsOneDelete | persistence/sql/persister_consent.go:878-893 | deleting in batches of any positive size equals one delete of all selected challenges |
| FlowFlush.BatchSizeIrrelevant | persistence/sql/persister_consent.go:878-893 | the batch size does not change the result |
| FlowFlush.CompletedConsentSurvives | persistence/sql/persister_consent.go:853-857 | a consent-used flow without errors is never deleted |
| FlowFlush.FlushDeletesAtMostLimit | persistence/sql/persister_consent.go:860-861 | with unique login challenges, at most `limit` flows are deleted |
| FlowFlush.FlushIdempotent | persistence/sql/persister_consent.go:836-896 | when the selection stayed below the limit, a second run with the same arguments changes nothing |
| GrantStore.HashSignature | oauth2/fosite_store_sql.go:301-307 | the signature is unchanged except in the access table with JWT access tokens, where it is the SHA-384 digest |
| GrantStore.SchemaFromRequest | oauth2/fosite_store_sql.go:118-164 | a session of a foreign type is refused; otherwise the row is active, carries the signature, has a consent challenge exactly when the session has a non-empty one, and has an empty subject when there is no session |
| GrantStore.ToRequest | oauth2/fosite_store_sql.go:166-207 | the request keeps the row's id, time, client and form; its lists are encodable and join back to the stored columns, which fixes them; it has a session exactly when the caller supplies one, and then the stored one, or the caller's when none is stored |
| GrantStore.CreateSession | oauth2/fosite_store_sql.go:309-336 | success exactly when the session type is Hydra's, there is no conflict and the (hashed) key is free, and then the row is stored under that key; otherwise nothing changes and the error is the session-type error, the serialization failure or the unique violation, in that order |
| GrantStore.FindSessionBySignature | oauth2/fosite_store_sql.go:346-367 | NotFound exactly for a missing row; the request exactly for an active row; the request with the invalidated-code error exactly for an inactive code row; the inactive-token error alone exactly for an inactive row of another table |
| GrantStore.DeleteSession | oauth2/fosite_store_sql.go:369-378 | the row under the hashed signature is gone and every other row is kept |
| GrantStore.InvalidateAuthorizeCodeSession | oauth2/fosite_store_sql.go:400-410 | exactly the code row with the signature becomes inactive; every other row and the key set are unchanged |
| GrantStore.RevokeSession | oauth2/fosite_store_sql.go:460-475 | a conflict gives the serialization failure and no change; otherwise a row is removed exactly when it is in the table and has the request id; a missing id is no error |
| GrantStore.FlushInactiveAccessTokens | oauth2/fosite_store_sql.go:477-485 | a row is removed exactly when it is an access row requested before both `now - lifespan` and `notAfter`; the rest are kept unchanged |
| GrantStore.DeleteAccessTokens | oauth2/fosite_store_sql.go:523-531 | a row is removed exactly when it is an access row of the client |
| GrantStore.CreateThenFind | oauth2/fosite_store_sql.go:309-367 | a session created and then read back with the same raw signature returns the original request, when its lists are encodable and a session object is supplied |
| GrantStore.UnencodableScopeIsAltered | oauth2/fosite_store_sql.go:155-201 | a requested-scope list that is `[""]` does not read back as itself |
| GrantStore.InvalidatedCodeIsReported | oauth2/fosite_store_sql.go:356-360 | after invalidating a code, reading it returns its request together with the invalidated-code error |
| GrantStore.DeleteThenFind | oauth2/fosite_store_sql.go:369-378 | a deleted session reads as NotFound |
| GrantStore.CreateTwiceIsUniqueViolation | oauth2/fosite_store_sql.go:325-334 | creating the same signature twice in a table fails with a unique violation and keeps the first row |
| GrantStore.RevokeThenFind | oauth2/fosite_store_sql.go:460-475 | after revoking a request, a signature of that table whose row had the request id reads as NotFound |
| GrantStore.RevokeKeepsOthers | oauth2/fosite_store_sql.go:460-475 | revoking leaves rows of other tables and other requests reading as before |
| GrantStore.FlushKeepsRecentTokens | oauth2/fosite_store_sql.go:477-485 | an access token requested within its lifespan or at or after `notAfter`, and any row of another table, reads as before after the flush |
| GrantStore.FlushRemovesOldTokens | oauth2/fosite_store_sql.go:477-485 | an access token requested before both bounds reads as NotFound after the flush |
| GrantStore.DeleteAccessTokensThenFind | oauth2/fosite_store_sql.go:523-531 | after deleting a client's access tokens, its access signatures read as NotFound and every other row reads as before |
| JtiBlacklist.ClientAssertionJWTValid | oauth2/fosite_store_sql.go:213-227 | refused with the known-JWT-ID error exactly when the ID's signature is stored with an expiry after now |
| JtiBlacklist.PurgeExpired | oauth2/fosite_store_sql.go:232-235 | an entry is kept, unchanged, exactly when its expiry is not before the given database time |
| JtiBlacklist.SetClientAssertionJWT | oauth2/fosite_store_sql.go:229-245 | the purge by the database clock always happens; the known-JWT-ID error is returned exactly when the ID survives the purge; otherwise the ID is recorded with its expiry |
| JtiBlacklist.SetThenValid | oauth2/fosite_store_sql.go:213-245 | a recorded ID is refused by the application check exactly until its expiry, whatever the database clock read |
| JtiBlacklist.KnownIsNotSettable | oauth2/fosite_store_sql.go:221-239 | while the database clock is not ahead of the application clock, an ID the check refuses cannot be recorded either |
| JtiBlacklist.ClockSkewAdmitsReplay | oauth2/fosite_store_sql.go:221-239 | with the database clock ahead past the entry's expiry, an ID the check still refuses is purged and recorded again |
| JtiBlacklist.ExpiryInstantDisagrees | oauth2/fosite_store_sql.go:221-233 | with both clocks agreeing, an entry expiring exactly now passes the check but blocks recording |
| JtiBlacklist.PurgeKeepsValidity | oauth2/fosite_store_sql.go:221-233 | a purge by a database clock not ahead of the application clock does not change the check's answer |

## Left out

- OpenTelemetry spans, logging, and the MySQL and Postgres dialect branches. `mySQLConfirmLoginSession` is taken to behave like the Postgres upsert.
- Transactions, `BeginTX`, `Commit` and `Rollback`, and isolation levels. Each call is modelled as atomic.
- Database faults other than the ones named. A serialization conflict is a boolean parameter of `CreateSession` and `RevokeSession`. Other faults are not modelled.
- `sqlcon.HandleError` internals. Its results appear only as `Errors.Error` values.
- AEAD encryption of session data, JSON (un)marshalling, `gjson` sniffing and `url.Values` form encoding. Sessions are stored as values and forms as already-encoded strings, so these are assumed to round-trip.
- SHA-384 and the JWT ID signature are uninterpreted functions.
- Client lookups through the client manager, and the client CRUD delegations in the grant store. A request carries only its client id, so `toRequest` cannot fail on a missing client.
- The flow codec and the `flow.Flow` transition methods are function parameters. So is the flow fetch that precedes `CreateConsentRequest`.
- Operations of the persister outside this model: `HandleConsentRequest`, `HandleLoginRequest`, `HandleDeviceUserAuthRequest`, `CreateLoginRequest`, `CreateLoginRequestFromDeviceRequest`, `CreateDeviceUserAuthRequest`, `GetFlow`, `GetConsentRequest`, `GetRememberedLoginSession`, `CreateLoginSession`, `DeleteLoginSession`, `RevokeSubjectLoginSession` and `CreateLogoutRequest`.
- Also outside the model: the keyset-paginated `FindSubjects*GrantedConsentRequests`, `CountSubjectsGrantedConsentRequests`, and the join in `listUserAuthenticatedClients`.
- The `ErrNoRows` branches on `Exec`-style deletes in the grant store are not modelled, because an `Exec` never reports that error. A delete that matches nothing succeeds.
- FlowFlush.FlushInactiveLoginConsentRequests: requires a positive batch size. With a batch size of zero the source's loop makes no progress when something is selected, and with a negative one the slice `challenges[i:j]` has `j < i`, so the source panics with a slice-bounds error. With nothing selected the source returns at once for any batch size, a case the model does not admit.
- FlowFlush.FlushInactiveLoginConsentRequests: the statement that only flushable flows are deleted is made under unique login challenges, because `login_challenge` is the table's primary key. Without that, it is weakened to "a flushable flow with the same challenge exists".
- LoginSessions.ConfirmLoginSession: requires unique session ids, which the primary key on `id` guarantees. It also omits the truncation of times to the second, because times are already whole seconds.
- FlowFlush.FlushInactiveLoginConsentRequests: the limit is a natural number. The source formats any integer into `LIMIT`. A negative one makes the database refuse the SELECT, and the source checks only for `sql.ErrNoRows`, so that error is swallowed: nothing is deleted and the call succeeds. The model does not admit a negative limit.
- The ordering of `ORDER BY login_challenge` is taken as code-point lexicographic order. Database collations may differ.
- FlowFlush.FlushInactiveLoginConsentRequests: the foreign-key cascade is not modelled. Deleting a flow also deletes, in the database, the rows that reference it, such as grant rows whose `challenge_id` names the flow. The model states only what the DELETE statement on the flow table does and keeps every other table as it was.
- Logout.RejectLogoutRequest, Logout.VerifyAndInvalidateLogoutRequest and LoginSessions.ConfirmLoginSession: their NotFound cases follow the affected-row count as Postgres reports it, counting every matched row. MySQL counts only rows whose values change. On MySQL, rejecting an already rejected request, or replaying a used logout verifier, reports NotFound where the model succeeds.

=== FILE: consent_lifecycle.dfy ===
/** The consent-flow lifecycle as the persister sees it: the state change made by
    CreateConsentRequest, the checks applied to every decoded challenge (purpose,
    network, maximum age) and the verify-and-invalidate paths.

    The flow codec (`flowctx.Decode`) and the flow's own transition methods are
    not part of this model; they are passed in as functions. `decode(token, p)`
    is `None` when the token does not decrypt or was not minted for purpose `p`;
    an `invalidate` function is `None` when the flow refuses the transition. */
module ConsentLifecycle {
  import opened Errors
  import opened ConsentStore

  /** The consent request the handler creates (flow.OAuth2ConsentRequest). */
  datatype ConsentRequestArgs = ConsentRequestArgs(
    loginChallenge: string,
    consentRequestId: string,
    skip: bool,
    verifier: string,
    csrf: string
  )

  /** The login request handed to the login UI (flow.LoginRequest). */
  datatype LoginRequest = LoginRequest(
    id: string,
    subject: string,
    clientId: string,
    requestedAt: int,
    skip: bool,
    sessionId: string,
    verifier: string,
    csrf: string
  )

  /** The device request handed to the device UI (flow.DeviceUserAuthRequest). */
  datatype DeviceUserAuthRequest = DeviceUserAuthRequest(
    id: string,
    clientId: string,
    requestedAt: int
  )

  /** f.GetLoginRequest(): the login-side view of a flow. */
  function LoginRequestOf(f: Flow): LoginRequest {
    LoginRequest(f.id, f.subject, f.clientId, f.requestedAt, f.loginSkip,
                 f.loginSessionId, f.loginVerifier, f.loginCsrf)
  }

  /** f.GetDeviceUserAuthRequest(): the device-side view of a flow. */
  function DeviceRequestOf(f: Flow): DeviceUserAuthRequest {
    DeviceUserAuthRequest(f.deviceChallengeId, f.clientId, f.requestedAt)
  }

  /** The two flows agree on everything except the state and the four consent
      request fields CreateConsentRequest writes. */
  predicate SameOutsideConsentRequest(f: Flow, g: Flow) {
    g == f.(state := g.state, consentRequestId := g.consentRequestId, consentSkip := g.consentSkip,
            consentVerifier := g.consentVerifier, consentCsrf := g.consentCsrf)
  }

  /** CreateConsentRequest: moves a flow that belongs to the caller's network and
      to the request's login challenge into ConsentInitialized. */
  function CreateConsentRequest(nid: Nid, f: Option<Flow>, req: ConsentRequestArgs): (r: Result<Flow>)
    ensures r.Err? <==> f.None? || f.value.id != req.loginChallenge || f.value.nid != nid
    ensures r.Err? ==> r.error == NotFound
    ensures r.Ok? ==> r.value.state == ConsentInitialized
    ensures r.Ok? ==> r.value.consentRequestId == req.consentRequestId && r.value.consentSkip == req.skip
    ensures r.Ok? ==> r.value.consentVerifier == req.verifier && r.value.consentCsrf == req.csrf
    ensures r.Ok? ==> SameOutsideConsentRequest(f.value, r.value)
  {
    if f.None? then Err(NotFound)
    else if f.value.id != req.loginChallenge || f.value.nid != nid then Err(NotFound)
    else Ok(f.value.(state := ConsentInitialized, consentRequestId := req.consentRequestId,
                     consentSkip := req.skip, consentVerifier := req.verifier, consentCsrf := req.csrf))
  }

  /** Decodes a token for one purpose and checks the network. A token that does
      not decode and a flow of another network fail alike, so the caller cannot
      tell whether a foreign tenant exists. */
  function DecodeForNetwork(decode: (string, Purpose) -> Option<Flow>, nid: Nid,
                            token: string, purpose: Purpose): (r: Option<Flow>)
    ensures r.Some? <==> decode(token, purpose).Some? && decode(token, purpose).value.nid == nid
    ensures r.Some? ==> r.value == decode(token, purpose).value
  {
    match decode(token, purpose)
    case None => None
    case Some(f) => if f.nid == nid then Some(f) else None
  }

  /** The check shared by the three challenge getters: decode, match the network,
      then refuse a flow older than the configured maximum age. */
  function DecodeChallenge(decode: (string, Purpose) -> Option<Flow>, nid: Nid, maxAge: int, now: int,
                           token: string, purpose: Purpose, kind: RequestKind): (r: Result<Flow>)
    ensures r.Ok? <==> DecodeForNetwork(decode, nid, token, purpose).Some?
                       && !PastMaxAge(DecodeForNetwork(decode, nid, token, purpose).value, maxAge, now)
    ensures r.Ok? ==> r.value == decode(token, purpose).value && r.value.nid == nid
    ensures r.Ok? ==> r.value.requestedAt + maxAge >= now
    ensures r.Err? ==> r.error == NotFound || r.error == RequestExpired(kind)
    ensures r.Err? && r.error == NotFound <==> DecodeForNetwork(decode, nid, token, purpose).None?
  {
    match DecodeForNetwork(decode, nid, token, purpose)
    case None => Err(NotFound)
    case Some(f) => if PastMaxAge(f, maxAge, now) then Err(RequestExpired(kind)) else Ok(f)
  }

  /** GetFlowByConsentChallenge */
  function GetFlowByConsentChallenge(decode: (string, Purpose) -> Option<Flow>, nid: Nid, maxAge: int, now: int,
                                     challenge: string): (r: Result<Flow>)
    ensures r.Ok? ==> decode(challenge, ConsentChallenge) == Some(r.value)
    ensures r.Ok? ==> r.value.nid == nid && r.value.requestedAt + maxAge >= now
    ensures r.Err? ==> r.error in {NotFound, RequestExpired(ConsentKind)}
    ensures (decode(challenge, ConsentChallenge).None? || decode(challenge, ConsentChallenge).value.nid != nid)
            <==> r == Err(NotFound)
    ensures r.Ok? <==> DecodeForNetwork(decode, nid, challenge, ConsentChallenge).Some?
                       && !PastMaxAge(DecodeForNetwork(decode, nid, challenge, ConsentChallenge).value, maxAge, now)
  {
    DecodeChallenge(decode, nid, maxAge, now, challenge, ConsentChallenge, ConsentKind)
  }

  /** GetLoginRequest: the login request of a fresh flow of this network, carrying
      the challenge string the caller passed in as its id. */
  function GetLoginRequest(decode: (string, Purpose) -> Option<Flow>, nid: Nid, maxAge: int, now: int,
                           challenge: string): (r: Result<LoginRequest>)
    ensures r.Ok? ==> r.value.id == challenge
    ensures r.Ok? ==> exists f :: decode(challenge, LoginChallenge) == Some(f) && f.nid == nid
                                  && f.requestedAt + maxAge >= now
                                  && r.value == LoginRequestOf(f).(id := challenge)
    ensures r.Err? ==> r.error in {NotFound, RequestExpired(LoginKind)}
    ensures (decode(challenge, LoginChallenge).None? || decode(challenge, LoginChallenge).value.nid != nid)
            <==> r == Err(NotFound)
    ensures r.Ok? <==> DecodeForNetwork(decode, nid, challenge, LoginChallenge).Some?
                       && !PastMaxAge(DecodeForNetwork(decode, nid, challenge, LoginChallenge).value, maxAge, now)
  {
    var f :- DecodeChallenge(decode, nid, maxAge, now, challenge, LoginChallenge, LoginKind);
    Ok(LoginRequestOf(f).(id := challenge))
  }

  /** GetDeviceUserAuthRequest */
  function GetDeviceUserAuthRequest(decode: (string, Purpose) -> Option<Flow>, nid: Nid, maxAge: int, now: int,
                                    challenge: string): (r: Result<DeviceUserAuthRequest>)
    ensures r.Ok? ==> exists f :: decode(challenge, DeviceChallenge) == Some(f) && f.nid == nid
                                  && f.requestedAt + maxAge >= now && r.value == DeviceRequestOf(f)
    ensures r.Err? ==> r.error in {NotFound, RequestExpired(DeviceKind)}
    ensures (decode(challenge, DeviceChallenge).None? || decode(challenge, DeviceChallenge).value.nid != nid)
            <==> r == Err(NotFound)
    ensures r.Ok? <==> DecodeForNetwork(decode, nid, challenge, DeviceChallenge).Some?
                       && !PastMaxAge(DecodeForNetwork(decode, nid, challenge, DeviceChallenge).value, maxAge, now)
  {
    var f :- DecodeChallenge(decode, nid, maxAge, now, challenge, DeviceChallenge, DeviceKind);
    Ok(DeviceRequestOf(f))
  }

  /** VerifyAndInvalidateLoginRequest: decode the login verifier, check the
      network, and let the flow move to its used state. Nothing is stored. */
  function VerifyAndInvalidateLoginRequest(decode: (string, Purpose) -> Option<Flow>,
                                           invalidate: Flow -> Option<Flow>,
                                           nid: Nid, verifier: string): (r: Result<Flow>)
    ensures r.Ok? <==> DecodeForNetwork(decode, nid, verifier, LoginVerifier).Some?
                       && invalidate(decode(verifier, LoginVerifier).value).Some?
    ensures r.Ok? ==> r.value == invalidate(decode(verifier, LoginVerifier).value).value
    ensures r.Err? ==> (r.error == NotFound <==> DecodeForNetwork(decode, nid, verifier, LoginVerifier).None?)
    ensures r.Err? ==> r.error in {NotFound, InvalidRequest}
  {
    match DecodeForNetwork(decode, nid, verifier, LoginVerifier)
    case None => Err(NotFound)
    case Some(f) =>
      match invalidate(f)
      case None => Err(InvalidRequest)
      case Some(g) => Ok(g)
  }

  /** VerifyAndInvalidateDeviceUserAuthRequest: like the login path, except that an
      undecodable verifier is reported as access denied. Nothing is stored. */
  function VerifyAndInvalidateDeviceUserAuthRequest(decode: (string, Purpose) -> Option<Flow>,
                                                    invalidate: Flow -> Option<Flow>,
                                                    nid: Nid, verifier: string): (r: Result<Flow>)
    ensures decode(verifier, DeviceVerifier).None? <==> r == Err(AccessDenied)
    ensures r == Err(NotFound) <==> decode(verifier, DeviceVerifier).Some?
                                    && decode(verifier, DeviceVerifier).value.nid != nid
    ensures r.Ok? <==> DecodeForNetwork(decode, nid, verifier, DeviceVerifier).Some?
                       && invalidate(decode(verifier, DeviceVerifier).value).Some?
    ensures r.Ok? ==> r.value == invalidate(decode(verifier, DeviceVerifier).value).value
    ensures r.Err? ==> r.error in {AccessDenied, NotFound, InvalidRequest}
  {
    match decode(verifier, DeviceVerifier)
    case None => Err(AccessDenied)
    case Some(f) =>
      if f.nid != nid then Err(NotFound)
      else match invalidate(f)
        case None => Err(InvalidRequest)
        case Some(g) => Ok(g)
  }

  /** A flow with this login challenge is already stored. */
  predicate FlowStored(db: Db, id: string) {
    exists i | 0 <= i < |db.flows| :: db.flows[i].id == id
  }

  /** VerifyAndInvalidateConsentRequest: decode the consent verifier, check the
      network, let the flow move to its used state, and insert the flow row. The
      insert is what makes the verifier one-shot: a second insert of the same login
      challenge violates the primary key. */
  function VerifyAndInvalidateConsentRequest(db: Db, decode: (string, Purpose) -> Option<Flow>,
                                             invalidate: Flow -> Option<Flow>,
                                             nid: Nid, verifier: string): (r: Step<Flow>)
    ensures decode(verifier, ConsentVerifier).None? <==> r.result == Err(AccessDenied)
    ensures r.result.Err? ==> r.db == db
    ensures r.result.Err? ==> r.result.error in {AccessDenied, NotFound, InvalidRequest, UniqueViolation}
    ensures r.result.Ok? ==> DecodeForNetwork(decode, nid, verifier, ConsentVerifier).Some?
                             && invalidate(decode(verifier, ConsentVerifier).value) == Some(r.result.value)
    ensures r.result.Ok? ==> !FlowStored(db, r.result.value.id) && r.db == db.(flows := db.flows + [r.result.value])
    ensures r.result.Ok? <==>
              && DecodeForNetwork(decode, nid, verifier, ConsentVerifier).Some?
              && invalidate(decode(verifier, ConsentVerifier).value).Some?
              && !FlowStored(db, invalidate(decode(verifier, ConsentVerifier).value).value.id)
    ensures r.result == Err(NotFound) <==>
              decode(verifier, ConsentVerifier).Some? && decode(verifier, ConsentVerifier).value.nid != nid
    ensures r.result == Err(InvalidRequest) <==>
              DecodeForNetwork(decode, nid, verifier, ConsentVerifier).Some?
              && invalidate(decode(verifier, ConsentVerifier).value).None?
    ensures r.result == Err(UniqueViolation) <==>
              && DecodeForNetwork(decode, nid, verifier, ConsentVerifier).Some?
              && invalidate(decode(verifier, ConsentVerifier).value).Some?
              && FlowStored(db, invalidate(decode(verifier, ConsentVerifier).value).value.id)
  {
    match decode(verifier, ConsentVerifier)
    case None => Step(db, Err(AccessDenied))
    case Some(f) =>
      if f.nid != nid then Step(db, Err(NotFound))
      else match invalidate(f)
        case None => Step(db, Err(InvalidRequest))
        case Some(g) =>
          if FlowStored(db, g.id) then Step(db, Err(WriteError(DuplicateKey)))
          else Step(db.(flows := db.flows + [g]), Ok(g))
  }

  /** A consent verifier is accepted at most once: replaying it against the store
      the first call produced fails with a unique violation. */
  lemma ConsentVerifierIsOneShot(db: Db, decode: (string, Purpose) -> Option<Flow>,
                                 invalidate: Flow -> Option<Flow>, nid: Nid, verifier: string)
    requires VerifyAndInvalidateConsentRequest(db, decode, invalidate, nid, verifier).result.Ok?
    ensures var first := VerifyAndInvalidateConsentRequest(db, decode, invalidate, nid, verifier);
            VerifyAndInvalidateConsentRequest(first.db, decode, invalidate, nid, verifier).result == Err(UniqueViolation)
  {
    var first := VerifyAndInvalidateConsentRequest(db, decode, invalidate, nid, verifier);
    var g := first.result.value;
    assert first.db.flows[|db.flows|] == g;
  }

  /** CreateConsentRequest leaves the login side of the flow as it was: the login
      request read back from the updated flow is the one read from the original. */
  lemma CreateConsentRequestKeepsLoginRequest(nid: Nid, f: Flow, req: ConsentRequestArgs)
    requires CreateConsentRequest(nid, Some(f), req).Ok?
    ensures LoginRequestOf(CreateConsentRequest(nid, Some(f), req).value) == LoginRequestOf(f)
    ensures CreateConsentRequest(nid, Some(f), req).value.id == f.id
    ensures CreateConsentRequest(nid, Some(f), req).value.nid == f.nid
  {
  }

  /** Decoding is re-checked on every call: a flow that was fresh when its login
      challenge was first read is refused once the maximum age has passed. */
  lemma LoginChallengeExpires(decode: (string, Purpose) -> Option<Flow>, nid: Nid, maxAge: int,
                              now: int, later: int, challenge: string)
    requires GetLoginRequest(decode, nid, maxAge, now, challenge).Ok?
    requires later > decode(challenge, LoginChallenge).value.requestedAt + maxAge
    ensures GetLoginRequest(decode, nid, maxAge, later, challenge) == Err(RequestExpired(LoginKind))
  {
  }
}

=== FILE: consent_store.dfy ===
/** The rows the consent persister reads and writes: flows, the access and
    refresh token rows the revocation cascade reaches, logout requests, login
    sessions and forced-obfuscated subject records. Every table is a sequence of
    rows in storage order; every row carries the network id (NID) of its tenant. */
module ConsentStore {
  import opened Errors
  import opened SeqFilter

  type Nid = string

  /** The flow states this model distinguishes. */
  datatype FlowState =
    | LoginInitialized
    | LoginUnused
    | LoginUsed
    | ConsentInitialized
    | ConsentUnused
    | ConsentUsed
    | DeviceInitialized
    | DeviceUnused
    | DeviceUsed

  /** The purpose tag of a challenge or verifier token (flowctx.As...). */
  datatype Purpose =
    | LoginChallenge
    | LoginVerifier
    | ConsentChallenge
    | ConsentVerifier
    | DeviceChallenge
    | DeviceVerifier

  /** One end-user authorization ceremony (table hydra_oauth2_flow).
      Nullable string columns follow sqlxx.NullString: "" is stored as NULL.
      The two error columns hold JSON text or NULL (None). */
  datatype Flow = Flow(
    id: string,                    // login_challenge, the primary key
    nid: Nid,
    state: FlowState,
    requestedAt: int,
    subject: string,
    clientId: string,
    loginSessionId: string,
    deviceChallengeId: string,
    loginSkip: bool,
    loginVerifier: string,
    loginCsrf: string,
    loginError: Option<string>,
    consentRequestId: string,      // consent_challenge_id
    consentSkip: bool,
    consentVerifier: string,
    consentCsrf: string,
    consentRemember: bool,
    consentRememberFor: Option<int>,
    consentError: Option<string>
  )

  /** A row of the access or refresh token tables, as far as the cascade sees it. */
  datatype TokenRow = TokenRow(signature: string, requestId: string, nid: Nid)

  /** A logout confirmation (table hydra_oauth2_logout_request).
      `expiresAt == None` is Go's zero time: rows written before expiry tracking. */
  datatype LogoutRequest = LogoutRequest(
    challenge: string,
    verifier: string,
    nid: Nid,
    subject: string,
    accepted: bool,
    rejected: bool,
    wasUsed: bool,
    expiresAt: Option<int>
  )

  /** A "remember me" authentication session (table hydra_oauth2_authentication_session). */
  datatype LoginSession = LoginSession(
    id: string,
    nid: Nid,
    authenticatedAt: int,
    subject: string,
    remember: bool,
    identityProviderSessionId: string,
    expiresAt: int
  )

  /** A pairwise subject identifier forced for one client
      (table hydra_oauth2_obfuscated_authentication_session). */
  datatype ObfuscatedSession = ObfuscatedSession(
    nid: Nid,
    subject: string,
    clientId: string,
    subjectObfuscated: string
  )

  datatype Db = Db(
    flows: seq<Flow>,
    access: seq<TokenRow>,
    refresh: seq<TokenRow>,
    logouts: seq<LogoutRequest>,
    loginSessions: seq<LoginSession>,
    obfuscated: seq<ObfuscatedSession>
  )

  /** The store after an operation, and what the operation returned. */
  datatype Step<T> = Step(db: Db, result: Result<T>)

  /** login_challenge is the primary key of the flow table. */
  predicate FlowIdsUnique(flows: seq<Flow>) {
    forall i, j | 0 <= i < j < |flows| :: flows[i].id != flows[j].id
  }

  /** Deleting flows keeps the login challenges unique. */
  lemma DeleteKeepsFlowIdsUnique(kept: seq<Flow>, flows: seq<Flow>)
    requires Subsequence(kept, flows)
    ensures FlowIdsUnique(flows) ==> FlowIdsUnique(kept)
  {
    if FlowIdsUnique(flows) {
      SubsequenceKeepsKeysDistinct(kept, flows, (f: Flow) => f.id);
    }
  }

  /** The id column is the primary key of the login session table. */
  predicate SessionIdsUnique(sessions: seq<LoginSession>) {
    forall i, j | 0 <= i < j < |sessions| :: sessions[i].id != sessions[j].id
  }

  /** An error column that holds no error: NULL, '{}' or ''. */
  predicate NoErrorRecorded(e: Option<string>) {
    e == None || e == Some("{}") || e == Some("")
  }

  /** The flow was requested longer than `maxAge` seconds before `now`
      (`requested_at + maxAge` is before now). */
  predicate PastMaxAge(f: Flow, maxAge: int, now: int) {
    f.requestedAt + maxAge < now
  }
}

=== FILE: errors.dfy ===
/** Error kinds and the result wrappers shared by the consent persister and the
    OAuth2 grant-session store.

    Every storage error of the consent persister and the grant store is mapped
    once into `Error`; the model never carries raw database errors above this
    layer. */
module Errors {

  /** An optional value; `None` also stands for SQL NULL and for Go's nil. */
  datatype Option<+T> = None | Some(value: T)

  /** The error kinds the two components return to their callers. */
  datatype Error =
    /** x.ErrNotFound, sqlcon.ErrNoRows and fosite.ErrNotFound: absent row,
        undecodable token, or a row of another network (tenant). */
    | NotFound
    /** consent.ErrNoPreviousConsentFound */
    | NoPreviousConsentFound
    /** fosite.ErrRequestUnauthorized with an "... request has expired" hint. */
    | RequestExpired(request: RequestKind)
    /** fosite.ErrAccessDenied: a verifier that cannot be decoded. */
    | AccessDenied
    /** fosite.ErrInvalidRequest: the flow refused the state transition. */
    | InvalidRequest
    /** flow.ErrorLogoutFlowExpired */
    | LogoutFlowExpired
    /** fosite.ErrInactiveToken */
    | InactiveToken
    /** fosite.ErrInvalidatedAuthorizeCode: a redeemed code was looked up again. */
    | InvalidatedAuthorizeCode
    /** fosite.ErrJTIKnown: a client-assertion JWT ID seen before. */
    | JtiKnown
    /** sqlcon.ErrUniqueViolation: an insert hit an existing primary key. */
    | UniqueViolation
    /** fosite.ErrSerializationFailure: the caller should retry the transaction. */
    | SerializationFailure
    /** The requester's session is not the server's own session type. */
    | UnexpectedSessionType

  /** Which getter reported an expired request. */
  datatype RequestKind = LoginKind | ConsentKind | DeviceKind

  datatype Result<+T> = Ok(value: T) | Err(error: Error) {
    predicate IsFailure() {
      Err?
    }

    function PropagateFailure<U>(): Result<U>
      requires Err?
    {
      Err(error)
    }

    function Extract(): T
      requires Ok?
    {
      value
    }
  }

  /** A raw failure reported by the relational store, before translation. */
  datatype StoreFault = ConcurrentUpdate | DuplicateKey

  /** The translation that `createSession`, `revokeSession` and `Commit` apply to a
      failed write: only a concurrent-update conflict becomes the retryable
      serialization failure; a duplicate key stays a unique violation. */
  function WriteError(fault: StoreFault): (e: Error)
    ensures e == SerializationFailure <==> fault == ConcurrentUpdate
    ensures e == UniqueViolation <==> fault == DuplicateKey
  {
    match fault
    case ConcurrentUpdate => SerializationFailure
    case DuplicateKey => UniqueViolation
  }
}

=== FILE: flush.dfy ===
/** FlushInactiveLoginConsentRequests: delete, in batches, up to `limit` flows of
    the caller's network that are unfinished or carry a login or consent error and
    were requested before the cutoff, choosing the smallest login challenges. */
module FlowFlush {
  import opened Errors
  import opened ConsentStore
  import opened LexOrder
  import opened SeqFilter

  /** The effective cutoff: the earlier of `notAfter` and `now - maxAge`. */
  function Cutoff(now: int, maxAge: int, notAfter: int): (c: int)
    ensures c <= notAfter && c <= now - maxAge
    ensures c == notAfter || c == now - maxAge
  {
    if now - maxAge < notAfter then now - maxAge else notAfter
  }

  /** The selection's WHERE clause: not a completed consent, or an error recorded
      on either side; requested before the cutoff; in this network. */
  predicate Flushable(f: Flow, nid: Nid, cutoff: int) {
    && (f.state != ConsentUsed || !NoErrorRecorded(f.loginError) || !NoErrorRecorded(f.consentError))
    && f.requestedAt < cutoff
    && f.nid == nid
  }

  /** The login challenges of the flushable flows, in storage order. */
  function FlushableIds(flows: seq<Flow>, nid: Nid, cutoff: int): (ids: seq<string>)
    ensures forall id | id in ids :: exists f | f in flows :: Flushable(f, nid, cutoff) && f.id == id
    ensures forall f | f in flows && Flushable(f, nid, cutoff) :: f.id in ids
    decreases |flows|
  {
    if |flows| == 0 then []
    else
      var rest := FlushableIds(flows[1..], nid, cutoff);
      assert forall f | f in flows :: f == flows[0] || f in flows[1..];
      if Flushable(flows[0], nid, cutoff) then [flows[0].id] + rest else rest
  }

  /** `SELECT login_challenge ... ORDER BY login_challenge LIMIT limit` */
  function Selection(flows: seq<Flow>, nid: Nid, cutoff: int, limit: nat): seq<string> {
    SmallestFirst(FlushableIds(flows, nid, cutoff), limit)
  }

  /** `DELETE FROM hydra_oauth2_flow WHERE login_challenge IN (ids) AND nid = ?` */
  function DeleteChallenges(flows: seq<Flow>, ids: seq<string>, nid: Nid): (r: seq<Flow>)
    ensures forall f | f in r :: f in flows && !(f.id in ids && f.nid == nid)
    ensures forall f | f in flows && !(f.id in ids && f.nid == nid) :: f in r
    ensures |r| <= |flows|
    ensures Subsequence(r, flows)
    decreases |flows|
  {
    if |flows| == 0 then []
    else
      var rest := DeleteChallenges(flows[1..], ids, nid);
      assert forall f | f in flows :: f == flows[0] || f in flows[1..];
      assert ([flows[0]] + rest)[1..] == rest;
      if flows[0].id in ids && flows[0].nid == nid then rest else [flows[0]] + rest
  }

  /** The Go loop: delete `challenges[i..i+batchSize]` for i = 0, batchSize, ... */
  function DeleteInBatches(flows: seq<Flow>, challenges: seq<string>, nid: Nid, batchSize: nat): (r: seq<Flow>)
    requires batchSize > 0
    ensures forall f | f in r :: f in flows
    ensures forall f | f in flows :: f in r <==> !(f.id in challenges && f.nid == nid)
    ensures Subsequence(r, flows)
    decreases |challenges|
  {
    if |challenges| == 0 then SubsequenceOfItself(flows); flows
    else
      var j := if batchSize < |challenges| then batchSize else |challenges|;
      assert forall x | x in challenges :: x in challenges[..j] || x in challenges[j..] by {
        assert challenges == challenges[..j] + challenges[j..];
      }
      var once := DeleteChallenges(flows, challenges[..j], nid);
      var r := DeleteInBatches(once, challenges[j..], nid, batchSize);
      SubsequenceTransitive(r, once, flows);
      r
  }

  /** FlushInactiveLoginConsentRequests. With a batch size of zero the source's loop
      makes no progress when there is something to delete, so a positive one is
      required. */
  function FlushInactiveLoginConsentRequests(db: Db, nid: Nid, now: int, maxAge: int, notAfter: int,
                                             limit: nat, batchSize: nat): (r: Db)
    requires batchSize > 0
    // only flows of this network whose login challenge was selected are deleted;
    // with login_challenge a primary key, only flushable flows are deleted
    ensures forall f | f in db.flows && f !in r.flows ::
              f.nid == nid && exists g | g in db.flows :: g.id == f.id && Flushable(g, nid, Cutoff(now, maxAge, notAfter))
    ensures FlowIdsUnique(db.flows) ==>
              forall f | f in db.flows && f !in r.flows :: Flushable(f, nid, Cutoff(now, maxAge, notAfter))
    ensures forall f | f in r.flows :: f in db.flows
    // the deleted flows have the smallest login challenges among the flushable ones
    ensures forall f, g | f in db.flows && f !in r.flows && g in r.flows && Flushable(g, nid, Cutoff(now, maxAge, notAfter)) ::
              LexLe(f.id, g.id)
    // a flushable flow survives only when the limit was reached
    ensures (exists g | g in r.flows :: Flushable(g, nid, Cutoff(now, maxAge, notAfter)))
            ==> |Selection(db.flows, nid, Cutoff(now, maxAge, notAfter), limit)| == limit
    ensures r == db.(flows := r.flows)
    // exactly the flows of this network carrying a selected login challenge go
    ensures forall f | f in db.flows ::
              f !in r.flows <==> f.nid == nid && f.id in Selection(db.flows, nid, Cutoff(now, maxAge, notAfter), limit)
    // the survivors keep their order and multiplicity, so the primary key still holds
    ensures Subsequence(r.flows, db.flows)
    ensures FlowIdsUnique(db.flows) ==> FlowIdsUnique(r.flows)
  {
    var cutoff := Cutoff(now, maxAge, notAfter);
    var challenges := Selection(db.flows, nid, cutoff, limit);
    DeleteInBatchesIsOneDelete(db.flows, challenges, nid, batchSize);
    var flows := DeleteInBatches(db.flows, challenges, nid, batchSize);
    DeleteKeepsFlowIdsUnique(flows, db.flows);
    db.(flows := flows)
  }

  /** Two deletes in a row remove what one delete of both id lists removes. */
  lemma {:induction false} DeleteChallengesCompose(flows: seq<Flow>, a: seq<string>, b: seq<string>, nid: Nid)
    ensures DeleteChallenges(DeleteChallenges(flows, a, nid), b, nid) == DeleteChallenges(flows, a + b, nid)
    decreases |flows|
  {
    if |flows| > 0 {
      DeleteChallengesCompose(flows[1..], a, b, nid);
      var f := flows[0];
      assert f.id in a + b <==> f.id in a || f.id in b;
      if !(f.id in a && f.nid == nid) {
        var once := DeleteChallenges(flows, a, nid);
        assert once == [f] + DeleteChallenges(flows[1..], a, nid);
        assert once[1..] == DeleteChallenges(flows[1..], a, nid);
      }
    }
  }

  /** Deleting in batches removes exactly the flows one delete of all the
      challenges removes, whatever the batch size. */
  lemma {:induction false} DeleteInBatchesIsOneDelete(flows: seq<Flow>, challenges: seq<string>, nid: Nid, batchSize: nat)
    requires batchSize > 0
    ensures DeleteInBatches(flows, challenges, nid, batchSize) == DeleteChallenges(flows, challenges, nid)
    decreases |challenges|
  {
    if |challenges| == 0 {
      DeleteNothing(flows, nid);
    } else {
      var j := if batchSize < |challenges| then batchSize else |challenges|;
      var once := DeleteChallenges(flows, challenges[..j], nid);
      assert DeleteInBatches(flows, challenges, nid, batchSize) == DeleteInBatches(once, challenges[j..], nid, batchSize);
      DeleteInBatchesIsOneDelete(once, challenges[j..], nid, batchSize);
      DeleteChallengesCompose(flows, challenges[..j], challenges[j..], nid);
      assert challenges[..j] + challenges[j..] == challenges;
    }
  }

  lemma {:induction false} DeleteNothing(flows: seq<Flow>, nid: Nid)
    ensures DeleteChallenges(flows, [], nid) == flows
    decreases |flows|
  {
    if |flows| > 0 {
      DeleteNothing(flows[1..], nid);
      assert [flows[0]] + flows[1..] == flows;
    }
  }

  /** The batch size does not change which flows are deleted. */
  lemma BatchSizeIrrelevant(db: Db, nid: Nid, now: int, maxAge: int, notAfter: int, limit: nat,
                            batch1: nat, batch2: nat)
    requires batch1 > 0 && batch2 > 0
    ensures FlushInactiveLoginConsentRequests(db, nid, now, maxAge, notAfter, limit, batch1)
            == FlushInactiveLoginConsentRequests(db, nid, now, maxAge, notAfter, limit, batch2)
  {
    var challenges := Selection(db.flows, nid, Cutoff(now, maxAge, notAfter), limit);
    DeleteInBatchesIsOneDelete(db.flows, challenges, nid, batch1);
    DeleteInBatchesIsOneDelete(db.flows, challenges, nid, batch2);
  }

  /** A completed consent without errors is never deleted. */
  lemma CompletedConsentSurvives(db: Db, nid: Nid, now: int, maxAge: int, notAfter: int, limit: nat,
                                 batchSize: nat, f: Flow)
    requires batchSize > 0
    requires FlowIdsUnique(db.flows)
    requires f in db.flows && f.state == ConsentUsed
    requires NoErrorRecorded(f.loginError) && NoErrorRecorded(f.consentError)
    ensures f in FlushInactiveLoginConsentRequests(db, nid, now, maxAge, notAfter, limit, batchSize).flows
  {
  }

  /** Deleting ids that no flow carries changes nothing. */
  lemma {:induction false} DeleteAbsentId(flows: seq<Flow>, ids: seq<string>, x: string, nid: Nid)
    requires forall f | f in flows :: f.id != x
    ensures DeleteChallenges(flows, ids, nid) == DeleteChallenges(flows, Without(ids, x), nid)
    decreases |flows|
  {
    if |flows| > 0 {
      DeleteAbsentId(flows[1..], ids, x, nid);
    }
  }

  /** With unique login challenges, a delete removes at most one flow per id. */
  lemma {:induction false} DeleteCount(flows: seq<Flow>, ids: seq<string>, nid: Nid)
    requires FlowIdsUnique(flows)
    ensures |flows| - |DeleteChallenges(flows, ids, nid)| <= |ids|
    decreases |flows|
  {
    if |flows| > 0 {
      var f := flows[0];
      var rest := flows[1..];
      assert FlowIdsUnique(rest) by {
        forall i, j | 0 <= i < j < |rest| ensures rest[i].id != rest[j].id {
          assert rest[i] == flows[i + 1] && rest[j] == flows[j + 1];
        }
      }
      if f.id in ids && f.nid == nid {
        assert forall g | g in rest :: g.id != f.id by {
          forall g | g in rest ensures g.id != f.id {
            var k :| 0 <= k < |rest| && rest[k] == g;
            assert flows[k + 1] == g;
          }
        }
        DeleteAbsentId(rest, ids, f.id, nid);
        DeleteCount(rest, Without(ids, f.id), nid);
      } else {
        DeleteCount(rest, ids, nid);
      }
    }
  }

  /** At most `limit` flows are deleted. */
  lemma FlushDeletesAtMostLimit(db: Db, nid: Nid, now: int, maxAge: int, notAfter: int, limit: nat, batchSize: nat)
    requires batchSize > 0
    requires FlowIdsUnique(db.flows)
    ensures |db.flows| - |FlushInactiveLoginConsentRequests(db, nid, now, maxAge, notAfter, limit, batchSize).flows| <= limit
  {
    var challenges := Selection(db.flows, nid, Cutoff(now, maxAge, notAfter), limit);
    DeleteInBatchesIsOneDelete(db.flows, challenges, nid, batchSize);
    DeleteCount(db.flows, challenges, nid);
  }

  lemma {:induction false} NothingFlushable(flows: seq<Flow>, nid: Nid, cutoff: int)
    requires forall f | f in flows :: !Flushable(f, nid, cutoff)
    ensures FlushableIds(flows, nid, cutoff) == []
    decreases |flows|
  {
    if |flows| > 0 {
      assert flows[0] in flows;
      NothingFlushable(flows[1..], nid, cutoff);
    }
  }

  /** Once a run has left no flushable flow behind, running it again with the same
      arguments deletes nothing more. */
  lemma FlushIdempotent(db: Db, nid: Nid, now: int, maxAge: int, notAfter: int, limit: nat, batchSize: nat)
    requires batchSize > 0
    requires |Selection(db.flows, nid, Cutoff(now, maxAge, notAfter), limit)| < limit
    ensures var once := FlushInactiveLoginConsentRequests(db, nid, now, maxAge, notAfter, limit, batchSize);
            FlushInactiveLoginConsentRequests(once, nid, now, maxAge, notAfter, limit, batchSize) == once
  {
    var once := FlushInactiveLoginConsentRequests(db, nid, now, maxAge, notAfter, limit, batchSize);
    var cutoff := Cutoff(now, maxAge, notAfter);
    NothingFlushable(once.flows, nid, cutoff);
    DeleteInBatchesIsOneDelete(once.flows, [], nid, batchSize);
    DeleteNothing(once.flows, nid);
  }
}

=== FILE: grant_store.dfy ===
/** The OAuth2 grant-session store: one table per grant kind, rows keyed by the
    (possibly hashed) token signature, holding the serialised request. */
module GrantStore {
  import opened Errors
  import opened ScopeList

  /** hydra_oauth2_oidc, _access, _refresh, _code and _pkce. */
  datatype Table = OpenId | Access | Refresh | Code | Pkce

  /** A row's primary key: its table and its stored signature. */
  datatype Key = Key(table: Table, signature: string)

  /** The session object carried by a request: Hydra's own session type, with the
      consent challenge it was issued under, or a session of some other type. */
  datatype SessionValue =
    | HydraSession(subject: string, consentChallenge: string)
    | ForeignSession(subject: string)
  {
    function Subject(): string {
      match this
      case HydraSession(s, _) => s
      case ForeignSession(s) => s
    }
  }

  /** The part of a fosite request the store persists. The client is its id; the
      form is kept in its encoded form. */
  datatype Requester = Requester(
    id: string,
    requestedAt: int,
    clientId: string,
    requestedScope: seq<string>,
    grantedScope: seq<string>,
    requestedAudience: seq<string>,
    grantedAudience: seq<string>,
    form: string,
    session: Option<SessionValue>)

  /** SQLData: one stored row. List columns are `|`-joined; the consent challenge
      column is NULL (None) unless the session carries a non-empty one. */
  datatype Row = Row(
    signature: string,
    requestId: string,
    consentChallenge: Option<string>,
    requestedAt: int,
    clientId: string,
    scope: string,
    grantedScope: string,
    requestedAudience: string,
    grantedAudience: string,
    form: string,
    subject: string,
    active: bool,
    session: Option<SessionValue>)

  type Store = map<Key, Row>

  /** Whether JWTs are issued as access tokens, and the SHA-384 hex digest used to
      shorten their signatures. */
  datatype Config = Config(jwtAccessTokens: bool, sha384: string -> string)

  /** hashSignature: only access-token signatures are hashed, and only when access
      tokens are JWTs. */
  function HashSignature(c: Config, signature: string, table: Table): (h: string)
    ensures table != Access ==> h == signature
    ensures !c.jwtAccessTokens ==> h == signature
    ensures table == Access && c.jwtAccessTokens ==> h == c.sha384(signature)
  {
    if table == Access && c.jwtAccessTokens then c.sha384(signature) else signature
  }

  /** sqlSchemaFromRequest: the row stored for a request; a session of a type other
      than Hydra's is refused. */
  function SchemaFromRequest(signature: string, r: Requester): (row: Result<Row>)
    ensures row.Err? <==> r.session.Some? && r.session.value.ForeignSession?
    ensures row.Err? ==> row.error == UnexpectedSessionType
    ensures row.Ok? ==> row.value.active && row.value.signature == signature
    ensures row.Ok? ==> (row.value.consentChallenge.Some? <==>
                           r.session.Some? && r.session.value.HydraSession? && r.session.value.consentChallenge != "")
    ensures row.Ok? && row.value.consentChallenge.Some? ==>
              row.value.consentChallenge.value == r.session.value.consentChallenge
    ensures row.Ok? ==> row.value.subject == (if r.session.None? then "" else r.session.value.Subject())
  {
    match r.session
    case None => Ok(RowOf(signature, r, None, ""))
    case Some(HydraSession(subject, challenge)) =>
      Ok(RowOf(signature, r, if |challenge| > 0 then Some(challenge) else None, subject))
    case Some(ForeignSession(_)) => Err(UnexpectedSessionType)
  }

  /** The row for a request once its challenge column and subject are known. */
  function RowOf(signature: string, r: Requester, challenge: Option<string>, subject: string): Row {
    Row(
      signature := signature,
      requestId := r.id,
      consentChallenge := challenge,
      requestedAt := r.requestedAt,
      clientId := r.clientId,
      scope := Join(r.requestedScope),
      grantedScope := Join(r.grantedScope),
      requestedAudience := Join(r.requestedAudience),
      grantedAudience := Join(r.grantedAudience),
      form := r.form,
      subject := subject,
      active := true,
      session := r.session)
  }

  /** toRequest: rebuild the request from a row. The stored session is decoded into
      the caller's session object; without one the request has no session, and a
      stored null leaves the caller's object as it was. */
  function ToRequest(row: Row, shell: Option<SessionValue>): (r: Requester)
    ensures r.id == row.requestId && r.requestedAt == row.requestedAt && r.clientId == row.clientId
    ensures Join(r.requestedScope) == row.scope && Join(r.grantedScope) == row.grantedScope
    ensures Join(r.requestedAudience) == row.requestedAudience && Join(r.grantedAudience) == row.grantedAudience
    ensures ListsEncodable(r)
    ensures r.form == row.form
    ensures r.session.None? <==> shell.None?
    ensures shell.Some? && row.session.Some? ==> r.session == row.session
    ensures shell.Some? && row.session.None? ==> r.session == shell
  {
    JoinSplitxRoundTrip(row.scope);
    JoinSplitxRoundTrip(row.grantedScope);
    JoinSplitxRoundTrip(row.requestedAudience);
    JoinSplitxRoundTrip(row.grantedAudience);
    Requester(
      id := row.requestId,
      requestedAt := row.requestedAt,
      clientId := row.clientId,
      requestedScope := Splitx(row.scope),
      grantedScope := Splitx(row.grantedScope),
      requestedAudience := Splitx(row.requestedAudience),
      grantedAudience := Splitx(row.grantedAudience),
      form := row.form,
      session := if shell.None? then None else if row.session.Some? then row.session else shell)
  }

  /** createSession, behind Create{OpenIDConnect,AuthorizeCode,AccessToken,
      RefreshToken,PKCERequest,ImplicitAccessToken}Session. `conflict` stands for a
      serialisation conflict the database reports for the insert. */
  function CreateSession(c: Config, store: Store, table: Table, signature: string, r: Requester,
                         conflict: bool): (s: StoreStep)
    ensures s.result.Ok? <==>
              && !(r.session.Some? && r.session.value.ForeignSession?)
              && !conflict
              && Key(table, HashSignature(c, signature, table)) !in store
    ensures s.result.Err? ==> s.store == store
    ensures r.session.Some? && r.session.value.ForeignSession? ==> s.result == Err(UnexpectedSessionType)
    ensures !(r.session.Some? && r.session.value.ForeignSession?) && conflict ==> s.result == Err(SerializationFailure)
    ensures (!(r.session.Some? && r.session.value.ForeignSession?) && !conflict
             && Key(table, HashSignature(c, signature, table)) in store) ==> s.result == Err(UniqueViolation)
    ensures s.result.Ok? ==>
              && SchemaFromRequest(HashSignature(c, signature, table), r).Ok?
              && s.store == store[Key(table, HashSignature(c, signature, table)) :=
                                   SchemaFromRequest(HashSignature(c, signature, table), r).value]
  {
    var key := Key(table, HashSignature(c, signature, table));
    match SchemaFromRequest(key.signature, r)
    case Err(e) => StoreStep(store, Err(e))
    case Ok(row) =>
      if conflict then StoreStep(store, Err(WriteError(ConcurrentUpdate)))
      else if key in store then StoreStep(store, Err(WriteError(DuplicateKey)))
      else StoreStep(store[key := row], Ok(()))
  }

  datatype StoreStep = StoreStep(store: Store, result: Result<()>)

  /** The outcome of findSessionBySignature: the request, the request of an
      invalidated authorization code together with ErrInvalidatedAuthorizeCode, or
      an error alone. */
  datatype Lookup =
    | Found(request: Requester)
    | InvalidatedCode(request: Requester)
    | Refused(error: Error)
  {
    /** The error the Go function returns alongside. */
    function ErrorOf(): Option<Error> {
      match this
      case Found(_) => None
      case InvalidatedCode(_) => Some(InvalidatedAuthorizeCode)
      case Refused(e) => Some(e)
    }
  }

  /** findSessionBySignature, behind the Get...Session calls. */
  function FindSessionBySignature(c: Config, store: Store, table: Table, signature: string,
                                  shell: Option<SessionValue>): (l: Lookup)
    ensures Key(table, HashSignature(c, signature, table)) !in store <==> l == Refused(NotFound)
    ensures l.Found? <==> Key(table, HashSignature(c, signature, table)) in store
                          && store[Key(table, HashSignature(c, signature, table))].active
    ensures l.InvalidatedCode? <==> table == Code && Key(table, HashSignature(c, signature, table)) in store
                                    && !store[Key(table, HashSignature(c, signature, table))].active
    ensures l == Refused(InactiveToken) <==> table != Code && Key(table, HashSignature(c, signature, table)) in store
                                             && !store[Key(table, HashSignature(c, signature, table))].active
    ensures !l.Refused? ==> l.request == ToRequest(store[Key(table, HashSignature(c, signature, table))], shell)
  {
    var key := Key(table, HashSignature(c, signature, table));
    if key !in store then Refused(NotFound)
    else
      var row := store[key];
      if !row.active && table == Code then InvalidatedCode(ToRequest(row, shell))
      else if !row.active then Refused(InactiveToken)
      else Found(ToRequest(row, shell))
  }

  /** deleteSession, behind the Delete...Session calls: remove the row with the
      (hashed) signature, if any. */
  function DeleteSession(c: Config, store: Store, table: Table, signature: string): (s: Store)
    ensures Key(table, HashSignature(c, signature, table)) !in s
    ensures forall k | k in store && k != Key(table, HashSignature(c, signature, table)) :: k in s && s[k] == store[k]
    ensures forall k | k in s :: k in store
  {
    store - {Key(table, HashSignature(c, signature, table))}
  }

  /** InvalidateAuthorizeCodeSession: set active to false on the code row with the
      signature, which is used as given (code signatures are never hashed). */
  function InvalidateAuthorizeCodeSession(store: Store, signature: string): (s: Store)
    ensures s.Keys == store.Keys
    ensures Key(Code, signature) in store ==> s[Key(Code, signature)] == store[Key(Code, signature)].(active := false)
    ensures forall k | k in store && k != Key(Code, signature) :: s[k] == store[k]
  {
    var key := Key(Code, signature);
    if key in store then store[key := store[key].(active := false)] else store
  }

  /** revokeSession, behind RevokeAccessToken and RevokeRefreshToken: delete every
      row of the table issued for the request id. A missing id is no error. */
  function RevokeSession(store: Store, table: Table, requestId: string, conflict: bool): (s: StoreStep)
    ensures s.result.Err? <==> conflict
    ensures conflict ==> s.result == Err(SerializationFailure) && s.store == store
    ensures forall k | k in s.store :: k in store && s.store[k] == store[k]
    ensures !conflict ==> forall k | k in store ::
              k in s.store <==> !(k.table == table && store[k].requestId == requestId)
  {
    if conflict then StoreStep(store, Err(WriteError(ConcurrentUpdate)))
    else StoreStep(map k | k in store && !(k.table == table && store[k].requestId == requestId) :: store[k], Ok(()))
  }

  /** FlushInactiveAccessTokens: delete the access-token rows requested before both
      `now - lifespan` and `notAfter`. */
  function FlushInactiveAccessTokens(store: Store, now: int, lifespan: int, notAfter: int): (s: Store)
    ensures forall k | k in s :: k in store && s[k] == store[k]
    ensures forall k | k in store ::
              k !in s <==> k.table == Access && store[k].requestedAt < now - lifespan && store[k].requestedAt < notAfter
  {
    map k | k in store && !(k.table == Access && store[k].requestedAt < now - lifespan && store[k].requestedAt < notAfter)
      :: store[k]
  }

  /** DeleteAccessTokens: delete every access-token row of the client. */
  function DeleteAccessTokens(store: Store, clientId: string): (s: Store)
    ensures forall k | k in s :: k in store && s[k] == store[k]
    ensures forall k | k in store :: k !in s <==> k.table == Access && store[k].clientId == clientId
  {
    map k | k in store && !(k.table == Access && store[k].clientId == clientId) :: store[k]
  }

  /** The lists a request carries survive the `|`-joined columns: no element holds
      the separator, and no list is the single empty string. */
  predicate ListsEncodable(r: Requester) {
    && Encodable(r.requestedScope) && Encodable(r.grantedScope)
    && Encodable(r.requestedAudience) && Encodable(r.grantedAudience)
  }

  /** A session stored and read back under the same signature returns the request
      it was created from, when its lists are encodable and the caller supplies a
      session object to decode into. */
  lemma CreateThenFind(c: Config, store: Store, table: Table, signature: string, r: Requester,
                       shell: SessionValue)
    requires ListsEncodable(r)
    requires r.session.Some?
    requires CreateSession(c, store, table, signature, r, false).result.Ok?
    ensures FindSessionBySignature(c, CreateSession(c, store, table, signature, r, false).store,
                                   table, signature, Some(shell)) == Found(r)
  {
    var row := SchemaFromRequest(HashSignature(c, signature, table), r).value;
    SplitxJoinRoundTrip(r.requestedScope);
    SplitxJoinRoundTrip(r.grantedScope);
    SplitxJoinRoundTrip(r.requestedAudience);
    SplitxJoinRoundTrip(r.grantedAudience);
    assert ToRequest(row, Some(shell)) == r;
  }

  /** A list that is not encodable does not come back from the store as it went in. */
  lemma UnencodableScopeIsAltered(c: Config, store: Store, table: Table, signature: string, r: Requester,
                                  shell: Option<SessionValue>)
    requires SeparatorFree(r.requestedScope) && !Encodable(r.requestedScope)
    requires CreateSession(c, store, table, signature, r, false).result.Ok?
    ensures var l := FindSessionBySignature(c, CreateSession(c, store, table, signature, r, false).store,
                                            table, signature, shell);
            l.Found? && l.request.requestedScope != r.requestedScope
  {
    SplitxJoinRoundTrip(r.requestedScope);
  }

  /** After InvalidateAuthorizeCodeSession, reading the code returns its request
      together with ErrInvalidatedAuthorizeCode. */
  lemma InvalidatedCodeIsReported(c: Config, store: Store, signature: string, shell: Option<SessionValue>)
    requires Key(Code, signature) in store
    ensures var l := FindSessionBySignature(c, InvalidateAuthorizeCodeSession(store, signature), Code, signature, shell);
            l == InvalidatedCode(ToRequest(store[Key(Code, signature)].(active := false), shell))
            && l.ErrorOf() == Some(InvalidatedAuthorizeCode)
  {
  }

  /** A deleted session reads as not found, whatever the hashing configuration. */
  lemma DeleteThenFind(c: Config, store: Store, table: Table, signature: string, shell: Option<SessionValue>)
    ensures FindSessionBySignature(c, DeleteSession(c, store, table, signature), table, signature, shell)
            == Refused(NotFound)
  {
  }

  /** Creating the same signature twice in a table is refused as a unique violation
      and leaves the first row in place. */
  lemma CreateTwiceIsUniqueViolation(c: Config, store: Store, table: Table, signature: string,
                                     r1: Requester, r2: Requester)
    requires CreateSession(c, store, table, signature, r1, false).result.Ok?
    requires !(r2.session.Some? && r2.session.value.ForeignSession?)
    ensures var once := CreateSession(c, store, table, signature, r1, false).store;
            CreateSession(c, once, table, signature, r2, false) == StoreStep(once, Err(UniqueViolation))
  {
  }

  /** After a revoke, no signature of the table finds a row issued for the request. */
  lemma RevokeThenFind(c: Config, store: Store, table: Table, requestId: string, signature: string,
                       shell: Option<SessionValue>)
    requires Key(table, HashSignature(c, signature, table)) in store
    requires store[Key(table, HashSignature(c, signature, table))].requestId == requestId
    ensures FindSessionBySignature(c, RevokeSession(store, table, requestId, false).store, table, signature, shell)
            == Refused(NotFound)
  {
  }

  /** Revoking one request leaves every row of the other tables and other requests
      readable as before. */
  lemma RevokeKeepsOthers(c: Config, store: Store, table: Table, requestId: string, other: Table, signature: string,
                          shell: Option<SessionValue>)
    requires var k := Key(other, HashSignature(c, signature, other));
             k in store && (other != table || store[k].requestId != requestId)
    ensures FindSessionBySignature(c, RevokeSession(store, table, requestId, false).store, other, signature, shell)
            == FindSessionBySignature(c, store, other, signature, shell)
  {
  }

  /** An access token requested within its lifespan, or at or after `notAfter`,
      survives the flush and reads as before; any token of another table does too. */
  lemma FlushKeepsRecentTokens(c: Config, store: Store, now: int, lifespan: int, notAfter: int, table: Table,
                               signature: string, shell: Option<SessionValue>)
    requires var k := Key(table, HashSignature(c, signature, table));
             k in store && (table != Access || store[k].requestedAt >= now - lifespan || store[k].requestedAt >= notAfter)
    ensures FindSessionBySignature(c, FlushInactiveAccessTokens(store, now, lifespan, notAfter), table, signature, shell)
            == FindSessionBySignature(c, store, table, signature, shell)
  {
  }

  /** An access token requested before both bounds is gone after the flush. */
  lemma FlushRemovesOldTokens(c: Config, store: Store, now: int, lifespan: int, notAfter: int,
                              signature: string, shell: Option<SessionValue>)
    requires var k := Key(Access, HashSignature(c, signature, Access));
             k in store && store[k].requestedAt < now - lifespan && store[k].requestedAt < notAfter
    ensures FindSessionBySignature(c, FlushInactiveAccessTokens(store, now, lifespan, notAfter), Access, signature, shell)
            == Refused(NotFound)
  {
  }

  /** After DeleteAccessTokens, no access signature of the client is found, and
      every other row reads as before. */
  lemma DeleteAccessTokensThenFind(c: Config, store: Store, clientId: string, table: Table, signature: string,
                                   shell: Option<SessionValue>)
    requires Key(table, HashSignature(c, signature, table)) in store
    ensures var k := Key(table, HashSignature(c, signature, table));
            var after := FindSessionBySignature(c, DeleteAccessTokens(store, clientId), table, signature, shell);
            if table == Access && store[k].clientId == clientId then after == Refused(NotFound)
            else after == FindSessionBySignature(c, store, table, signature, shell)
  {
  }
}

=== FILE: jti_blacklist.dfy ===
/** The client-assertion JWT ID blacklist (hydra_oauth2_jti_blacklist): the
    signature of each used JWT ID with the expiry of its assertion. */
module JtiBlacklist {
  import opened Errors

  /** signature -> expires_at */
  type Blacklist = map<string, int>

  datatype JtiStep = JtiStep(blacklist: Blacklist, result: Result<()>)

  /** ClientAssertionJWTValid: an unknown JWT ID is valid; a known one is refused
      while its expiry lies after now, and valid again from its expiry on. */
  function ClientAssertionJWTValid(b: Blacklist, signatureOf: string -> string, jti: string, now: int): (r: Result<()>)
    ensures r.Err? <==> signatureOf(jti) in b && b[signatureOf(jti)] > now
    ensures r.Err? ==> r.error == JtiKnown
  {
    var sig := signatureOf(jti);
    if sig !in b then Ok(())
    else if b[sig] > now then Err(JtiKnown)
    else Ok(())
  }

  /** `DELETE ... WHERE expires_at < now()` */
  function PurgeExpired(b: Blacklist, now: int): (p: Blacklist)
    ensures forall s | s in b :: s in p <==> b[s] >= now
    ensures forall s | s in p :: s in b && p[s] == b[s]
  {
    map s | s in b && b[s] >= now :: b[s]
  }

  /** SetClientAssertionJWT: purge expired entries, then insert the JWT ID; an entry
      already there after the purge is a unique violation, reported as ErrJTIKnown
      (the purge stays done). The purge compares against the database's clock
      `dbNow`, not the application clock ClientAssertionJWTValid reads. */
  function SetClientAssertionJWT(b: Blacklist, signatureOf: string -> string, jti: string, exp: int,
                                 dbNow: int): (r: JtiStep)
    ensures r.result.Err? <==> signatureOf(jti) in b && b[signatureOf(jti)] >= dbNow
    ensures r.result.Err? ==> r.result.error == JtiKnown && r.blacklist == PurgeExpired(b, dbNow)
    ensures r.result.Ok? ==> r.blacklist == PurgeExpired(b, dbNow)[signatureOf(jti) := exp]
  {
    var purged := PurgeExpired(b, dbNow);
    var sig := signatureOf(jti);
    if sig in purged then JtiStep(purged, Err(JtiKnown))
    else JtiStep(purged[sig := exp], Ok(()))
  }

  /** A JWT ID recorded with expiry `exp` is refused by the application until that
      expiry, and accepted from then on, whatever the database clock read. */
  lemma SetThenValid(b: Blacklist, signatureOf: string -> string, jti: string, exp: int, dbNow: int, now: int)
    requires SetClientAssertionJWT(b, signatureOf, jti, exp, dbNow).result.Ok?
    ensures var after := SetClientAssertionJWT(b, signatureOf, jti, exp, dbNow).blacklist;
            ClientAssertionJWTValid(after, signatureOf, jti, now).Err? <==> now < exp
  {
  }

  /** While the database clock is not ahead of the application clock, whatever
      ClientAssertionJWTValid refuses, SetClientAssertionJWT refuses too. */
  lemma KnownIsNotSettable(b: Blacklist, signatureOf: string -> string, jti: string, exp: int, dbNow: int, now: int)
    requires dbNow <= now
    requires ClientAssertionJWTValid(b, signatureOf, jti, now).Err?
    ensures SetClientAssertionJWT(b, signatureOf, jti, exp, dbNow).result == Err(JtiKnown)
  {
  }

  /** With the database clock more than a second ahead, a JWT ID the application
      still refuses is purged and can be recorded again. */
  lemma ClockSkewAdmitsReplay(b: Blacklist, signatureOf: string -> string, jti: string, exp: int, dbNow: int, now: int)
    requires signatureOf(jti) in b && now < b[signatureOf(jti)] < dbNow
    ensures ClientAssertionJWTValid(b, signatureOf, jti, now) == Err(JtiKnown)
    ensures SetClientAssertionJWT(b, signatureOf, jti, exp, dbNow).result == Ok(())
  {
  }

  /** With both clocks agreeing, the converse fails at one instant: an entry
      expiring exactly now is valid to ClientAssertionJWTValid (its expiry is not
      after now) but not yet purged by SetClientAssertionJWT (its expiry is not
      before now). */
  lemma ExpiryInstantDisagrees(b: Blacklist, signatureOf: string -> string, jti: string, exp: int, now: int)
    requires signatureOf(jti) in b && b[signatureOf(jti)] == now
    ensures ClientAssertionJWTValid(b, signatureOf, jti, now) == Ok(())
    ensures SetClientAssertionJWT(b, signatureOf, jti, exp, now).result == Err(JtiKnown)
  {
  }

  /** A purge by a database clock not ahead of the application clock never changes
      what ClientAssertionJWTValid answers. */
  lemma PurgeKeepsValidity(b: Blacklist, signatureOf: string -> string, jti: string, dbNow: int, now: int)
    requires dbNow <= now
    ensures ClientAssertionJWTValid(PurgeExpired(b, dbNow), signatureOf, jti, now)
            == ClientAssertionJWTValid(b, signatureOf, jti, now)
  {
  }
}

=== FILE: lex_order.dfy ===
/** The order `ORDER BY login_challenge` sorts by, taken as code-point
    lexicographic order on strings, and the `ORDER BY ... LIMIT k` selection
    built on it. */
module LexOrder {

  /** a sorts before or equal to b. */
  predicate LexLe(a: string, b: string)
    decreases |a|
  {
    |a| == 0 || (|b| > 0 && (a[0] < b[0] || (a[0] == b[0] && LexLe(a[1..], b[1..]))))
  }

  lemma {:induction false} LexLeReflexive(a: string)
    ensures LexLe(a, a)
    decreases |a|
  {
    if |a| > 0 {
      LexLeReflexive(a[1..]);
    }
  }

  lemma {:induction false} LexLeTotal(a: string, b: string)
    ensures LexLe(a, b) || LexLe(b, a)
    decreases |a|
  {
    if |a| > 0 && |b| > 0 && a[0] == b[0] {
      LexLeTotal(a[1..], b[1..]);
    }
  }

  lemma {:induction false} LexLeAntisymmetric(a: string, b: string)
    requires LexLe(a, b) && LexLe(b, a)
    ensures a == b
    decreases |a|
  {
    if |a| > 0 {
      LexLeAntisymmetric(a[1..], b[1..]);
      assert a == [a[0]] + a[1..];
      assert b == [b[0]] + b[1..];
    }
  }

  lemma {:induction false} LexLeTransitive(a: string, b: string, c: string)
    requires LexLe(a, b) && LexLe(b, c)
    ensures LexLe(a, c)
    decreases |a|
  {
    if |a| > 0 && a[0] == b[0] && b[0] == c[0] {
      LexLeTransitive(a[1..], b[1..], c[1..]);
    }
  }

  /** The least element of a non-empty list. */
  function MinOf(s: seq<string>): (m: string)
    requires |s| > 0
    ensures m in s
    ensures forall x | x in s :: LexLe(m, x)
    decreases |s|
  {
    if |s| == 1 then
      LexLeReflexive(s[0]);
      s[0]
    else
      var rest := MinOf(s[1..]);
      LexLeTotal(s[0], rest);
      if LexLe(s[0], rest) then
        LexLeReflexive(s[0]);
        forall x | x in s[1..] ensures LexLe(s[0], x) {
          LexLeTransitive(s[0], rest, x);
        }
        assert forall x | x in s :: x == s[0] || x in s[1..];
        s[0]
      else
        assert forall x | x in s :: x == s[0] || x in s[1..];
        rest
  }

  /** The list without any occurrence of x. */
  function Without(s: seq<string>, x: string): (r: seq<string>)
    ensures forall y :: y in r <==> y in s && y != x
    ensures |r| <= |s|
    ensures x in s ==> |r| < |s|
  {
    if |s| == 0 then []
    else if s[0] == x then Without(s[1..], x)
    else [s[0]] + Without(s[1..], x)
  }

  /** Strictly increasing, hence also free of duplicates. */
  predicate StrictlySorted(s: seq<string>) {
    forall i, j | 0 <= i < j < |s| :: LexLe(s[i], s[j]) && s[i] != s[j]
  }

  /** `SELECT x ... ORDER BY x LIMIT k` over a primary-key column: the k least
      values of s, in increasing order. The query has no DISTINCT; the result
      holds each value once because x is a primary key, so it has no duplicates. */
  function SmallestFirst(s: seq<string>, k: nat): (r: seq<string>)
    ensures forall x | x in r :: x in s
    ensures |r| <= k
    ensures StrictlySorted(r)
    ensures forall x, y | x in r && y in s && y !in r :: LexLe(x, y)
    ensures |r| < k ==> forall y | y in s :: y in r
    decreases |s|
  {
    if k == 0 || |s| == 0 then []
    else
      var m := MinOf(s);
      var rest := SmallestFirst(Without(s, m), k - 1);
      var r := [m] + rest;
      forall i, j | 0 <= i < j < |r| ensures LexLe(r[i], r[j]) && r[i] != r[j] {
        if i > 0 {
          assert r[i] == rest[i - 1] && r[j] == rest[j - 1];
        } else {
          assert r[j] in rest;
        }
      }
      forall x, y | x in r && y in s && y !in r ensures LexLe(x, y) {
        if x != m {
          assert x in rest;
          assert y in Without(s, m);
        }
      }
      r
  }
}

=== FILE: login_sessions.dfy ===
/** Login sessions ("remember me" records) and forced-obfuscated subject records. */
module LoginSessions {
  import opened Errors
  import opened ConsentStore
  import opened SeqFilter

  /** The row ConfirmLoginSession writes: the caller's session, stamped with the
      caller's network and an expiry one session lifespan from now. Times are whole
      seconds, so the source's truncation to the second leaves them unchanged. */
  function Confirmed(s: LoginSession, nid: Nid, now: int, lifespan: int): LoginSession {
    s.(nid := nid, expiresAt := now + lifespan)
  }

  /** The session with this id, if stored. */
  function FindSession(sessions: seq<LoginSession>, id: string): (r: Option<nat>)
    ensures r.Some? ==> r.value < |sessions| && sessions[r.value].id == id
    ensures r.None? ==> forall i | 0 <= i < |sessions| :: sessions[i].id != id
    decreases |sessions|
  {
    if |sessions| == 0 then None
    else if sessions[0].id == id then Some(0)
    else match FindSession(sessions[1..], id)
      case None => None
      case Some(i) => Some(i + 1)
  }

  /** ConfirmLoginSession (and its MySQL variant): insert the session, or, when its
      id is already stored for this network, overwrite it. An id stored for another
      network is not overwritten and reports NotFound. */
  function ConfirmLoginSession(db: Db, nid: Nid, now: int, lifespan: int, s: LoginSession): (r: Step<()>)
    requires SessionIdsUnique(db.loginSessions)
    ensures r.result.Ok? ==> Confirmed(s, nid, now, lifespan) in r.db.loginSessions
    ensures r.result.Ok? ==> forall x | x in db.loginSessions && x.id != s.id :: x in r.db.loginSessions
    ensures r.result.Ok? ==> forall x | x in r.db.loginSessions && x.id != s.id :: x in db.loginSessions
    ensures r.result.Err? <==> exists x | x in db.loginSessions :: x.id == s.id && x.nid != nid
    ensures r.result.Err? ==> r.result.error == NotFound && r.db == db
    ensures SessionIdsUnique(r.db.loginSessions)
    ensures r.result.Ok? ==>
              forall x | x in r.db.loginSessions && x.id == s.id :: x == Confirmed(s, nid, now, lifespan)
    ensures r.db == db.(loginSessions := r.db.loginSessions)
  {
    var row := Confirmed(s, nid, now, lifespan);
    match FindSession(db.loginSessions, s.id)
    case None =>
      assert forall x | x in db.loginSessions :: x.id != s.id;
      Step(db.(loginSessions := db.loginSessions + [row]), Ok(()))
    case Some(i) =>
      if db.loginSessions[i].nid != nid then Step(db, Err(NotFound))
      else
        var sessions := db.loginSessions[i := row];
        assert sessions[i] == row;
        assert forall j | 0 <= j < |sessions| && j != i :: sessions[j] == db.loginSessions[j];
        Step(db.(loginSessions := sessions), Ok(()))
  }

  /** Confirming the same session twice at the same time stores what one
      confirmation stores. */
  lemma ConfirmLoginSessionIdempotent(db: Db, nid: Nid, now: int, lifespan: int, s: LoginSession)
    requires SessionIdsUnique(db.loginSessions)
    requires ConfirmLoginSession(db, nid, now, lifespan, s).result.Ok?
    ensures var once := ConfirmLoginSession(db, nid, now, lifespan, s);
            ConfirmLoginSession(once.db, nid, now, lifespan, s) == once
  {
    var once := ConfirmLoginSession(db, nid, now, lifespan, s);
    var row := Confirmed(s, nid, now, lifespan);
    var i := FindSession(once.db.loginSessions, s.id).value;
    assert once.db.loginSessions[i] == row;
    assert once.db.loginSessions[i := row] == once.db.loginSessions;
  }

  /** `WHERE nid = ? AND client_id = ? AND subject = ?` */
  predicate SameSubjectAndClient(o: ObfuscatedSession, nid: Nid, client: string, subject: string) {
    o.nid == nid && o.clientId == client && o.subject == subject
  }

  /** CreateForcedObfuscatedLoginSession: replace the subject's record for the
      client by the given one, stamped with the caller's network. */
  function CreateForcedObfuscatedLoginSession(db: Db, nid: Nid, s: ObfuscatedSession): (r: Step<()>)
    ensures r.result == Ok(())
    ensures s.(nid := nid) in r.db.obfuscated
    ensures forall o | o in r.db.obfuscated && SameSubjectAndClient(o, nid, s.clientId, s.subject) :: o == s.(nid := nid)
    ensures forall o | o in db.obfuscated && !SameSubjectAndClient(o, nid, s.clientId, s.subject) :: o in r.db.obfuscated
    ensures forall o | o in r.db.obfuscated :: o in db.obfuscated || o == s.(nid := nid)
    ensures r.db == db.(obfuscated := r.db.obfuscated)
    // the kept records stay once each, in order, and the new record comes last
    ensures |r.db.obfuscated| > 0 && r.db.obfuscated[|r.db.obfuscated| - 1] == s.(nid := nid)
    ensures Subsequence(r.db.obfuscated[..|r.db.obfuscated| - 1], db.obfuscated)
  {
    var keep := (o: ObfuscatedSession) => !SameSubjectAndClient(o, nid, s.clientId, s.subject);
    var kept := Filter(db.obfuscated, keep);
    FilterIsSubsequence(db.obfuscated, keep);
    assert (kept + [s.(nid := nid)])[..|kept|] == kept;
    Step(db.(obfuscated := kept + [ObfuscatedSession(nid, s.subject, s.clientId, s.subjectObfuscated)]), Ok(()))
  }

  /** GetForcedObfuscatedLoginSession: the first record of this network mapping the
      client and obfuscated subject. */
  function GetForcedObfuscatedLoginSession(db: Db, nid: Nid, client: string, obfuscated: string): (r: Result<ObfuscatedSession>)
    ensures r.Ok? ==> r.value in db.obfuscated && r.value.clientId == client
                      && r.value.subjectObfuscated == obfuscated && r.value.nid == nid
    ensures r.Err? <==> forall o | o in db.obfuscated :: !(o.clientId == client && o.subjectObfuscated == obfuscated && o.nid == nid)
    ensures r.Err? ==> r.error == NotFound
  {
    match First(db.obfuscated, (o: ObfuscatedSession) => o.clientId == client && o.subjectObfuscated == obfuscated && o.nid == nid)
    case None => Err(NotFound)
    case Some(o) => Ok(o)
  }

  /** A record just created is found again by its client and obfuscated subject;
      when no other subject of the network uses that obfuscated value with the
      client, it is the record returned. */
  lemma ObfuscatedSessionRoundTrip(db: Db, nid: Nid, s: ObfuscatedSession)
    requires forall o | o in db.obfuscated && o.nid == nid && o.clientId == s.clientId
                        && o.subjectObfuscated == s.subjectObfuscated :: o.subject == s.subject
    ensures var after := CreateForcedObfuscatedLoginSession(db, nid, s).db;
            GetForcedObfuscatedLoginSession(after, nid, s.clientId, s.subjectObfuscated) == Ok(s.(nid := nid))
  {
  }
}

=== FILE: logout.dfy ===
/** Logout requests: accept, reject, read, and the verify-and-invalidate step
    that consumes the logout verifier. */
module Logout {
  import opened Errors
  import opened ConsentStore
  import opened SeqFilter

  /** `WHERE challenge = ? AND nid = ?` */
  predicate IsChallenge(l: LogoutRequest, nid: Nid, challenge: string) {
    l.challenge == challenge && l.nid == nid
  }

  /** Accepted and rejected are never both set. */
  predicate Exclusive(logouts: seq<LogoutRequest>) {
    forall l | l in logouts :: !(l.accepted && l.rejected)
  }

  /** `UPDATE ... SET accepted = a, rejected = !a WHERE challenge = ? AND nid = ?` */
  function Decide(logouts: seq<LogoutRequest>, nid: Nid, challenge: string, accept: bool): (r: seq<LogoutRequest>)
    ensures |r| == |logouts|
    ensures forall i | 0 <= i < |r| ::
              if IsChallenge(logouts[i], nid, challenge)
              then r[i] == logouts[i].(accepted := accept, rejected := !accept)
              else r[i] == logouts[i]
    decreases |logouts|
  {
    if |logouts| == 0 then []
    else
      var l := logouts[0];
      [if IsChallenge(l, nid, challenge) then l.(accepted := accept, rejected := !accept) else l]
        + Decide(logouts[1..], nid, challenge, accept)
  }

  /** `UPDATE ... SET was_used = TRUE WHERE nid = ? AND verifier = ? AND accepted AND NOT rejected` */
  function MarkUsed(logouts: seq<LogoutRequest>, nid: Nid, verifier: string): (r: seq<LogoutRequest>)
    ensures |r| == |logouts|
    ensures forall i | 0 <= i < |r| ::
              if Consumable(logouts[i], nid, verifier) then r[i] == logouts[i].(wasUsed := true)
              else r[i] == logouts[i]
    decreases |logouts|
  {
    if |logouts| == 0 then []
    else
      var l := logouts[0];
      [if Consumable(l, nid, verifier) then l.(wasUsed := true) else l] + MarkUsed(logouts[1..], nid, verifier)
  }

  /** After accepting, a row with the challenge is visible exactly when one existed. */
  lemma AcceptedRowVisible(logouts: seq<LogoutRequest>, nid: Nid, challenge: string)
    ensures (exists l | l in logouts :: IsChallenge(l, nid, challenge))
            <==> (exists l | l in Decide(logouts, nid, challenge, true) :: IsChallenge(l, nid, challenge) && !l.rejected)
  {
    var d := Decide(logouts, nid, challenge, true);
    if exists l | l in logouts :: IsChallenge(l, nid, challenge) {
      var l :| l in logouts && IsChallenge(l, nid, challenge);
      var i :| 0 <= i < |logouts| && logouts[i] == l;
      assert d[i] in d;
    }
    if exists l | l in d :: IsChallenge(l, nid, challenge) && !l.rejected {
      var l :| l in d && IsChallenge(l, nid, challenge) && !l.rejected;
      var i :| 0 <= i < |d| && d[i] == l;
      assert logouts[i] in logouts;
    }
  }

  /** A consumable row keeps its verifier and network once flagged as used. */
  lemma MarkedRowVisible(logouts: seq<LogoutRequest>, marked: seq<LogoutRequest>, nid: Nid, verifier: string)
    requires exists l | l in logouts :: Consumable(l, nid, verifier)
    requires |marked| == |logouts|
    requires forall i | 0 <= i < |logouts| :: marked[i].nid == logouts[i].nid && marked[i].verifier == logouts[i].verifier
    ensures exists l | l in marked :: l.nid == nid && l.verifier == verifier
  {
    var l :| l in logouts && Consumable(l, nid, verifier);
    var i :| 0 <= i < |logouts| && logouts[i] == l;
    assert marked[i] in marked;
  }

  /** GetLogoutRequest: the first row with this challenge in this network that has
      not been rejected. */
  function GetLogoutRequest(db: Db, nid: Nid, challenge: string): (r: Result<LogoutRequest>)
    ensures r.Ok? ==> r.value in db.logouts && IsChallenge(r.value, nid, challenge) && !r.value.rejected
    ensures r.Err? <==> forall l | l in db.logouts && IsChallenge(l, nid, challenge) :: l.rejected
    ensures r.Err? ==> r.error == NotFound
  {
    match First(db.logouts, (l: LogoutRequest) => IsChallenge(l, nid, challenge) && !l.rejected)
    case None => Err(NotFound)
    case Some(l) => Ok(l)
  }

  /** AcceptLogoutRequest: mark the request accepted (and not rejected), then read it back. */
  function AcceptLogoutRequest(db: Db, nid: Nid, challenge: string): (r: Step<LogoutRequest>)
    ensures r.db == db.(logouts := Decide(db.logouts, nid, challenge, true))
    ensures r.result.Ok? ==> r.result.value.accepted && !r.result.value.rejected
    ensures r.result.Ok? ==> IsChallenge(r.result.value, nid, challenge)
    ensures r.result.Ok? <==> exists l | l in db.logouts :: IsChallenge(l, nid, challenge)
    ensures r.result.Err? ==> r.result.error == NotFound
    ensures Exclusive(db.logouts) ==> Exclusive(r.db.logouts)
  {
    var logouts := Decide(db.logouts, nid, challenge, true);
    AcceptedRowVisible(db.logouts, nid, challenge);
    var db' := db.(logouts := logouts);
    Step(db', GetLogoutRequest(db', nid, challenge))
  }

  /** RejectLogoutRequest: mark the request rejected (and not accepted); no
      matching row is NotFound. */
  function RejectLogoutRequest(db: Db, nid: Nid, challenge: string): (r: Step<()>)
    ensures r.result.Err? <==> forall l | l in db.logouts :: !IsChallenge(l, nid, challenge)
    ensures r.result.Err? ==> r.result.error == NotFound && r.db == db
    ensures r.db == db.(logouts := Decide(db.logouts, nid, challenge, false))
    ensures forall l | l in r.db.logouts && IsChallenge(l, nid, challenge) :: l.rejected && !l.accepted
    ensures forall l | l in db.logouts && !IsChallenge(l, nid, challenge) :: l in r.db.logouts
    ensures Exclusive(db.logouts) ==> Exclusive(r.db.logouts)
  {
    var logouts := Decide(db.logouts, nid, challenge, false);
    if forall l | l in db.logouts :: !IsChallenge(l, nid, challenge) then
      assert logouts == db.logouts;
      Step(db, Err(NotFound))
    else
      Step(db.(logouts := logouts), Ok(()))
  }

  /** `WHERE nid = ? AND verifier = ? AND accepted = TRUE AND rejected = FALSE` */
  predicate Consumable(l: LogoutRequest, nid: Nid, verifier: string) {
    l.nid == nid && l.verifier == verifier && l.accepted && !l.rejected
  }

  /** A set expiry that lies before now; the zero time never expires. */
  predicate LogoutExpired(l: LogoutRequest, now: int) {
    l.expiresAt.Some? && l.expiresAt.value < now
  }

  /** VerifyAndInvalidateLogoutRequest: flag every accepted, unrejected row with this
      verifier as used, then read the row back and refuse it if its expiry has passed.
      The used flag is set even when the expiry check then fails, and a row that is
      already used is accepted again. */
  function VerifyAndInvalidateLogoutRequest(db: Db, nid: Nid, verifier: string, now: int): (r: Step<LogoutRequest>)
    ensures (forall l | l in db.logouts :: !Consumable(l, nid, verifier)) <==> r.result == Err(NotFound)
    ensures r.result == Err(NotFound) ==> r.db == db
    ensures r.result.Err? ==> r.result.error in {NotFound, LogoutFlowExpired}
    ensures r.result.Ok? ==> r.result.value in r.db.logouts && r.result.value.verifier == verifier
                             && r.result.value.nid == nid && !LogoutExpired(r.result.value, now)
    ensures |r.db.logouts| == |db.logouts|
    ensures r.result != Err(NotFound) ==>
              forall i | 0 <= i < |db.logouts| && Consumable(db.logouts[i], nid, verifier) ::
                r.db.logouts[i] == db.logouts[i].(wasUsed := true)
    ensures forall i | 0 <= i < |db.logouts| && !Consumable(db.logouts[i], nid, verifier) ::
              r.db.logouts[i] == db.logouts[i]
    ensures r.db == db.(logouts := r.db.logouts)
    // the expiry check: a row of this network with the verifier has expired, and
    // when none has (a missing expiry never expires) a consumable row is returned
    ensures r.result == Err(LogoutFlowExpired) ==>
              exists l | l in db.logouts :: l.nid == nid && l.verifier == verifier && LogoutExpired(l, now)
    ensures (exists l | l in db.logouts :: Consumable(l, nid, verifier))
            && (forall l | l in db.logouts && l.nid == nid && l.verifier == verifier :: !LogoutExpired(l, now))
            ==> r.result.Ok?
    ensures (exists l | l in db.logouts :: Consumable(l, nid, verifier))
            && (forall l | l in db.logouts && l.nid == nid && l.verifier == verifier :: LogoutExpired(l, now))
            ==> r.result == Err(LogoutFlowExpired)
  {
    if forall l | l in db.logouts :: !Consumable(l, nid, verifier) then
      Step(db, Err(NotFound))
    else
      var logouts := MarkUsed(db.logouts, nid, verifier);
      MarkedRowVisible(db.logouts, logouts, nid, verifier);
      ReadBackChecksExpiry(db.logouts, nid, verifier, now);
      Step(db.(logouts := logouts), ReadBack(logouts, nid, verifier, now))
  }

  /** Flagging rows as used changes neither which rows carry a network and verifier
      nor their expiry. */
  lemma MarkUsedKeepsExpiry(logouts: seq<LogoutRequest>, nid: Nid, verifier: string)
    ensures forall l | l in MarkUsed(logouts, nid, verifier) ::
              exists k | k in logouts :: k.nid == l.nid && k.verifier == l.verifier && k.expiresAt == l.expiresAt
    ensures forall k | k in logouts ::
              exists l | l in MarkUsed(logouts, nid, verifier) :: k.nid == l.nid && k.verifier == l.verifier && k.expiresAt == l.expiresAt
  {
    var m := MarkUsed(logouts, nid, verifier);
    forall l | l in m
      ensures exists k | k in logouts :: k.nid == l.nid && k.verifier == l.verifier && k.expiresAt == l.expiresAt
    {
      var i :| 0 <= i < |m| && m[i] == l;
      assert logouts[i] in logouts;
    }
    forall k | k in logouts
      ensures exists l | l in m :: k.nid == l.nid && k.verifier == l.verifier && k.expiresAt == l.expiresAt
    {
      var i :| 0 <= i < |logouts| && logouts[i] == k;
      assert m[i] in m;
    }
  }

  /** The read after flagging refuses the row exactly on the expiry of the rows
      with the verifier, as they were before the flag was set. */
  lemma ReadBackChecksExpiry(logouts: seq<LogoutRequest>, nid: Nid, verifier: string, now: int)
    requires exists l | l in logouts :: Consumable(l, nid, verifier)
    requires exists l | l in MarkUsed(logouts, nid, verifier) :: l.nid == nid && l.verifier == verifier
    ensures ReadBack(MarkUsed(logouts, nid, verifier), nid, verifier, now) == Err(LogoutFlowExpired) ==>
              exists l | l in logouts :: l.nid == nid && l.verifier == verifier && LogoutExpired(l, now)
    ensures (forall l | l in logouts && l.nid == nid && l.verifier == verifier :: !LogoutExpired(l, now))
            ==> ReadBack(MarkUsed(logouts, nid, verifier), nid, verifier, now).Ok?
    ensures (forall l | l in logouts && l.nid == nid && l.verifier == verifier :: LogoutExpired(l, now))
            ==> ReadBack(MarkUsed(logouts, nid, verifier), nid, verifier, now) == Err(LogoutFlowExpired)
  {
    var marked := MarkUsed(logouts, nid, verifier);
    assert forall i | 0 <= i < |marked| ::
      marked[i].nid == logouts[i].nid && marked[i].verifier == logouts[i].verifier
      && marked[i].expiresAt == logouts[i].expiresAt;
    ExpiryCarriedOver(logouts, marked, nid, verifier, now, ReadBack(marked, nid, verifier, now));
  }

  /** Whatever a read of `marked` found about expiry holds of `logouts`, when the
      two tables agree row by row on network, verifier and expiry. */
  lemma ExpiryCarriedOver(logouts: seq<LogoutRequest>, marked: seq<LogoutRequest>, nid: Nid, verifier: string,
                          now: int, r: Result<LogoutRequest>)
    requires |marked| == |logouts|
    requires forall i | 0 <= i < |marked| ::
               marked[i].nid == logouts[i].nid && marked[i].verifier == logouts[i].verifier
               && marked[i].expiresAt == logouts[i].expiresAt
    requires r.Ok? ==> r.value in marked && r.value.nid == nid && r.value.verifier == verifier
                       && !LogoutExpired(r.value, now)
    requires r.Err? ==> r.error == LogoutFlowExpired
                        && exists l | l in marked :: l.nid == nid && l.verifier == verifier && LogoutExpired(l, now)
    ensures r == Err(LogoutFlowExpired) ==>
              exists l | l in logouts :: l.nid == nid && l.verifier == verifier && LogoutExpired(l, now)
    ensures (forall l | l in logouts && l.nid == nid && l.verifier == verifier :: !LogoutExpired(l, now)) ==> r.Ok?
    ensures (forall l | l in logouts && l.nid == nid && l.verifier == verifier :: LogoutExpired(l, now))
            ==> r == Err(LogoutFlowExpired)
  {
    if r.Err? {
      var l :| l in marked && l.nid == nid && l.verifier == verifier && LogoutExpired(l, now);
      var i :| 0 <= i < |marked| && marked[i] == l;
      assert logouts[i] in logouts;
    } else {
      var i :| 0 <= i < |marked| && marked[i] == r.value;
      assert logouts[i] in logouts;
    }
  }

  /** The read that follows the update: the first row of this network with the
      verifier, refused when its expiry has passed. */
  function ReadBack(logouts: seq<LogoutRequest>, nid: Nid, verifier: string, now: int): (r: Result<LogoutRequest>)
    requires exists l | l in logouts :: l.nid == nid && l.verifier == verifier
    ensures r.Ok? ==> r.value in logouts && r.value.verifier == verifier && r.value.nid == nid
                      && !LogoutExpired(r.value, now)
    ensures r.Err? ==> r.error == LogoutFlowExpired
                       && exists l | l in logouts :: l.nid == nid && l.verifier == verifier && LogoutExpired(l, now)
  {
    match First(logouts, (x: LogoutRequest) => x.nid == nid && x.verifier == verifier)
    case None => assert false; Err(LogoutFlowExpired)
    case Some(found) =>
      if LogoutExpired(found, now) then Err(LogoutFlowExpired) else Ok(found)
  }

  /** The verifier is not consumed by its use at this layer: verifying it again, at
      the same time, against the store the first call produced, gives the same
      answer and the same store. */
  lemma LogoutVerifierReplayAccepted(db: Db, nid: Nid, verifier: string, now: int)
    ensures var first := VerifyAndInvalidateLogoutRequest(db, nid, verifier, now);
            VerifyAndInvalidateLogoutRequest(first.db, nid, verifier, now) == first
  {
    if exists i | 0 <= i < |db.logouts| :: Consumable(db.logouts[i], nid, verifier) {
      var marked := MarkUsed(db.logouts, nid, verifier);
      MarkUsedIdempotent(db.logouts, nid, verifier);
      var i :| 0 <= i < |db.logouts| && Consumable(db.logouts[i], nid, verifier);
      assert marked[i] in marked && Consumable(marked[i], nid, verifier);
      var first := VerifyAndInvalidateLogoutRequest(db, nid, verifier, now);
      assert first == Step(db.(logouts := marked), ReadBack(marked, nid, verifier, now));
    } else {
      assert forall l | l in db.logouts :: !Consumable(l, nid, verifier);
    }
  }

  /** Flagging rows as used a second time changes nothing. */
  lemma MarkUsedIdempotent(logouts: seq<LogoutRequest>, nid: Nid, verifier: string)
    ensures MarkUsed(MarkUsed(logouts, nid, verifier), nid, verifier) == MarkUsed(logouts, nid, verifier)
  {
    var m := MarkUsed(logouts, nid, verifier);
    var mm := MarkUsed(m, nid, verifier);
    forall i | 0 <= i < |m| ensures mm[i] == m[i] {
      if Consumable(logouts[i], nid, verifier) {
        assert m[i] == logouts[i].(wasUsed := true);
      }
    }
  }

  /** Once a request is rejected it can neither be read nor consumed. */
  lemma RejectedLogoutIsHidden(db: Db, nid: Nid, challenge: string, verifier: string, now: int)
    requires RejectLogoutRequest(db, nid, challenge).result.Ok?
    requires forall l | l in db.logouts && l.nid == nid && l.verifier == verifier :: l.challenge == challenge
    ensures var after := RejectLogoutRequest(db, nid, challenge).db;
            && GetLogoutRequest(after, nid, challenge) == Err(NotFound)
            && VerifyAndInvalidateLogoutRequest(after, nid, verifier, now).result == Err(NotFound)
  {
    var after := RejectLogoutRequest(db, nid, challenge).db;
    forall l | l in after.logouts ensures !Consumable(l, nid, verifier) {
      var i :| 0 <= i < |after.logouts| && after.logouts[i] == l;
      if IsChallenge(db.logouts[i], nid, challenge) {
        assert l.rejected;
      } else {
        assert l == db.logouts[i];
      }
    }
  }
}

=== FILE: remembered_consent.dfy ===
/** The "remembered consent" lookup: the most recent granted, remembered consent
    of a subject for a client, and the remember-for expiry filter applied to it. */
module RememberedConsent {
  import opened Errors
  import opened ConsentStore
  import opened SeqFilter

  /** The remember-for duration in seconds; a missing value counts as 0. */
  function RememberFor(f: Flow): int {
    match f.consentRememberFor
    case None => 0
    case Some(n) => n
  }

  /** Nanoseconds in a second: Go's `time.Second`. */
  const NanosPerSecond: int := 1_000_000_000

  /** 2^63: Go's int64 holds the integers in [-2^63, 2^63). */
  const TwoTo63: int := 0x8000_0000_0000_0000

  /** The largest remember-for, in seconds, whose nanosecond count fits an int64. */
  const MaxExactRememberFor: int := 9_223_372_036

  /** Go's int64 arithmetic: x reduced modulo 2^64 into [-2^63, 2^63). */
  function WrapInt64(x: int): (w: int)
    ensures -TwoTo63 <= w < TwoTo63
    ensures (x - w) % (2 * TwoTo63) == 0
    ensures -TwoTo63 <= x < TwoTo63 ==> w == x
  {
    var m := x % (2 * TwoTo63);
    if m >= TwoTo63 then m - 2 * TwoTo63 else m
  }

  /** `time.Duration(rememberFor) * time.Second`: the remember-for in nanoseconds,
      wrapped as Go's int64 multiplication wraps. */
  function RememberForNanos(f: Flow): int {
    WrapInt64(RememberFor(f) * NanosPerSecond)
  }

  /** A remembered consent is expired when it has a positive remember-for and
      `requested_at` plus the remember-for duration lies before now. */
  predicate ConsentExpired(f: Flow, now: int) {
    RememberFor(f) > 0 && f.requestedAt * NanosPerSecond + RememberForNanos(f) < now * NanosPerSecond
  }

  /** While the duration fits an int64, the expiry test is the plain one on seconds. */
  lemma ExactRememberFor(f: Flow, now: int)
    requires RememberFor(f) <= MaxExactRememberFor
    ensures ConsentExpired(f, now) <==> RememberFor(f) > 0 && f.requestedAt + RememberFor(f) < now
  {
    var x := RememberFor(f);
    if x > 0 {
      assert x * NanosPerSecond < TwoTo63;
      assert RememberForNanos(f) == x * NanosPerSecond;
      assert f.requestedAt * NanosPerSecond + x * NanosPerSecond == (f.requestedAt + x) * NanosPerSecond;
    }
  }

  /** Beyond that bound the duration wraps: a consent remembered for 10^10 seconds
      and requested just now is already treated as expired. */
  lemma RememberForWraps(f: Flow, now: int)
    requires f.consentRememberFor == Some(10_000_000_000) && f.requestedAt == now
    ensures f.requestedAt + RememberFor(f) >= now
    ensures ConsentExpired(f, now)
    ensures FilterExpiredConsentRequests([f], now) == []
  {
    assert RememberForNanos(f) == 10_000_000_000_000_000_000 - 2 * TwoTo63;
  }

  /** filterExpiredConsentRequests: drop the expired remembered consents. */
  function FilterExpiredConsentRequests(fs: seq<Flow>, now: int): (r: seq<Flow>)
    ensures forall f | f in r :: f in fs
    ensures forall f | f in fs :: f in r <==> !ConsentExpired(f, now)
    // while the remember-for fits Go's nanosecond duration, the test is on seconds
    ensures forall f | f in fs && RememberFor(f) <= MaxExactRememberFor ::
              f in r <==> (f.consentRememberFor == None || f.consentRememberFor.value <= 0
                           || f.requestedAt + f.consentRememberFor.value >= now)
    ensures Subsequence(r, fs)
  {
    forall f | f in fs && RememberFor(f) <= MaxExactRememberFor
      ensures ConsentExpired(f, now) <==> RememberFor(f) > 0 && f.requestedAt + RememberFor(f) < now
    {
      ExactRememberFor(f, now);
    }
    FilterIsSubsequence(fs, g => !ConsentExpired(g, now));
    Filter(fs, g => !ConsentExpired(g, now))
  }

  /** The WHERE clause of the lookup: a used, not skipped, error-free, remembered
      consent of this subject for this client in this network. */
  predicate RememberedGrant(f: Flow, nid: Nid, client: string, subject: string) {
    && f.nid == nid
    && f.state == ConsentUsed
    && f.subject == subject
    && f.clientId == client
    && !f.consentSkip
    && f.consentError == Some("{}")
    && f.consentRemember
  }

  /** `ORDER BY requested_at DESC` then `First`: a row with the greatest
      requested_at; among equals the model takes the first in storage order. */
  function Latest(fs: seq<Flow>): (f: Flow)
    requires |fs| > 0
    ensures f in fs
    ensures forall g | g in fs :: g.requestedAt <= f.requestedAt
  {
    if |fs| == 1 then fs[0]
    else
      var m := Latest(fs[1..]);
      assert forall g | g in fs :: g == fs[0] || g in fs[1..];
      if fs[0].requestedAt >= m.requestedAt then fs[0] else m
  }

  /** FindGrantedAndRememberedConsentRequest: the latest remembered grant, or
      NoPreviousConsentFound when there is none or when that latest one has
      expired (an older, still valid grant is not consulted). */
  function FindGrantedAndRememberedConsentRequest(db: Db, nid: Nid, client: string, subject: string,
                                                  now: int): (r: Result<Flow>)
    ensures r.Ok? ==> r.value in db.flows && RememberedGrant(r.value, nid, client, subject)
    ensures r.Ok? ==> !ConsentExpired(r.value, now)
    ensures r.Ok? ==> forall g | g in db.flows && RememberedGrant(g, nid, client, subject) ::
                        g.requestedAt <= r.value.requestedAt
    ensures r.Err? ==> r.error == NoPreviousConsentFound
    ensures r.Err? ==> forall g | g in db.flows && RememberedGrant(g, nid, client, subject) ::
                         exists h | h in db.flows && RememberedGrant(h, nid, client, subject) ::
                           h.requestedAt >= g.requestedAt && ConsentExpired(h, now)
  {
    var candidates := Filter(db.flows, g => RememberedGrant(g, nid, client, subject));
    if |candidates| == 0 then Err(NoPreviousConsentFound)
    else
      var f := Latest(candidates);
      if |FilterExpiredConsentRequests([f], now)| == 0 then Err(NoPreviousConsentFound)
      else Ok(f)
  }

  /** When the most recent remembered grant is unexpired, it is the answer. */
  lemma LatestUnexpiredGrantIsFound(db: Db, nid: Nid, client: string, subject: string, now: int, f: Flow)
    requires f in db.flows && RememberedGrant(f, nid, client, subject) && !ConsentExpired(f, now)
    requires forall g | g in db.flows && RememberedGrant(g, nid, client, subject) && g != f ::
               g.requestedAt < f.requestedAt
    ensures FindGrantedAndRememberedConsentRequest(db, nid, client, subject, now) == Ok(f)
  {
  }

  /** When the most recent remembered grant has expired, the lookup reports no
      previous consent, even if an older grant is still within its remember-for. */
  lemma ExpiredLatestHidesOlderGrant(db: Db, nid: Nid, client: string, subject: string, now: int,
                                     latest: Flow, older: Flow)
    requires latest in db.flows && RememberedGrant(latest, nid, client, subject) && ConsentExpired(latest, now)
    requires forall g | g in db.flows && RememberedGrant(g, nid, client, subject) && g != latest ::
               g.requestedAt < latest.requestedAt
    requires older in db.flows && RememberedGrant(older, nid, client, subject) && !ConsentExpired(older, now)
    ensures FindGrantedAndRememberedConsentRequest(db, nid, client, subject, now) == Err(NoPreviousConsentFound)
  {
  }
}

=== FILE: revocation.dfy ===
/** The consent-session revocation cascade: find the consent ids of the matching
    flows of this network, delete the access and refresh token rows issued under
    them, then delete the flows carrying them. */
module Revocation {
  import opened Errors
  import opened ConsentStore
  import opened SeqFilter

  /** The three WHERE clauses the public revocation calls pass to the cascade.
      Each one requires a consent id (`consent_challenge_id IS NOT NULL`, or
      equality with a given id, which NULL never satisfies). */
  datatype Selector =
    | BySubject(subject: string)
    | BySubjectClient(subject: string, client: string)
    | ByConsentId(consentId: string)

  predicate Selects(sel: Selector, f: Flow) {
    && f.consentRequestId != ""
    && match sel
       case BySubject(s) => f.subject == s
       case BySubjectClient(s, c) => f.subject == s && f.clientId == c
       case ByConsentId(id) => f.consentRequestId == id
  }

  /** The consent ids of the selected flows of network nid. */
  function ConsentIds(flows: seq<Flow>, nid: Nid, sel: Selector): (ids: set<string>)
    ensures forall f | f in flows && f.nid == nid && Selects(sel, f) :: f.consentRequestId in ids
    ensures forall id | id in ids :: exists f | f in flows :: f.nid == nid && Selects(sel, f) && f.consentRequestId == id
    decreases |flows|
  {
    if |flows| == 0 then {}
    else
      var rest := ConsentIds(flows[1..], nid, sel);
      assert forall f | f in flows :: f == flows[0] || f in flows[1..];
      if flows[0].nid == nid && Selects(sel, flows[0]) then {flows[0].consentRequestId} + rest else rest
  }

  /** A token row of network nid issued under one of the ids. */
  predicate Issued(t: TokenRow, nid: Nid, ids: set<string>) {
    t.nid == nid && t.requestId in ids
  }

  /** `after` is `db` with exactly the token rows and flows of network nid under
      one of the consent ids removed: every other row stays, once and in its
      place, and nothing is changed or added. */
  predicate RevokedUnder(db: Db, after: Db, nid: Nid, ids: set<string>) {
    && (forall t | t in db.access :: t in after.access <==> !Issued(t, nid, ids))
    && (forall t | t in db.refresh :: t in after.refresh <==> !Issued(t, nid, ids))
    && (forall g | g in db.flows :: g in after.flows <==> !(g.nid == nid && g.consentRequestId in ids))
    && (forall t | t in after.access :: t in db.access)
    && (forall t | t in after.refresh :: t in db.refresh)
    && (forall g | g in after.flows :: g in db.flows)
    && Subsequence(after.access, db.access)
    && Subsequence(after.refresh, db.refresh)
    && Subsequence(after.flows, db.flows)
    && after == db.(access := after.access, refresh := after.refresh, flows := after.flows)
  }

  /** revokeConsentSession */
  function RevokeConsentSession(db: Db, nid: Nid, sel: Selector): (r: Step<()>)
    ensures r.result == Ok(())
    // the selected flows are gone, and so is every token row issued under their consent ids
    ensures forall f | f in db.flows && f.nid == nid && Selects(sel, f) :: f !in r.db.flows
    ensures forall f | f in db.flows && f.nid == nid && Selects(sel, f) ::
              && (forall t | t in r.db.access :: !(t.nid == nid && t.requestId == f.consentRequestId))
              && (forall t | t in r.db.refresh :: !(t.nid == nid && t.requestId == f.consentRequestId))
              && (forall g | g in r.db.flows :: !(g.nid == nid && g.consentRequestId == f.consentRequestId))
    // rows of other networks, and rows under other ids, are kept; nothing is added
    ensures forall t | t in db.access :: t in r.db.access <==> !Issued(t, nid, ConsentIds(db.flows, nid, sel))
    ensures forall t | t in db.refresh :: t in r.db.refresh <==> !Issued(t, nid, ConsentIds(db.flows, nid, sel))
    ensures forall t | t in r.db.access :: t in db.access
    ensures forall t | t in r.db.refresh :: t in db.refresh
    ensures forall g | g in db.flows && g.nid != nid :: g in r.db.flows
    ensures forall g | g in r.db.flows :: g in db.flows
    ensures r.db.logouts == db.logouts && r.db.loginSessions == db.loginSessions && r.db.obfuscated == db.obfuscated
    ensures forall g | g in db.flows :: g in r.db.flows <==> !(g.nid == nid && g.consentRequestId in ConsentIds(db.flows, nid, sel))
    ensures RevokedUnder(db, r.db, nid, ConsentIds(db.flows, nid, sel))
    ensures FlowIdsUnique(db.flows) ==> FlowIdsUnique(r.db.flows)
    // an empty match changes nothing
    ensures (forall f | f in db.flows :: !(f.nid == nid && Selects(sel, f))) ==> r.db == db
  {
    var ids := ConsentIds(db.flows, nid, sel);
    if ids == {} then
      SubsequenceOfItself(db.access);
      SubsequenceOfItself(db.refresh);
      SubsequenceOfItself(db.flows);
      Step(db, Ok(()))
    else
      var keepToken := (t: TokenRow) => !Issued(t, nid, ids);
      var keepFlow := (g: Flow) => !(g.nid == nid && g.consentRequestId in ids);
      var access := Filter(db.access, keepToken);
      var refresh := Filter(db.refresh, keepToken);
      var flows := Filter(db.flows, keepFlow);
      FilterIsSubsequence(db.access, keepToken);
      FilterIsSubsequence(db.refresh, keepToken);
      FilterIsSubsequence(db.flows, keepFlow);
      DeleteKeepsFlowIdsUnique(flows, db.flows);
      Step(db.(access := access, refresh := refresh, flows := flows), Ok(()))
  }

  /** RevokeSubjectConsentSession: every consent session of the subject. */
  function RevokeSubjectConsentSession(db: Db, nid: Nid, subject: string): (r: Step<()>)
    ensures r.result == Ok(())
    ensures forall f | f in db.flows && f.nid == nid && f.subject == subject && f.consentRequestId != "" ::
              f !in r.db.flows
    ensures RevokedUnder(db, r.db, nid, ConsentIds(db.flows, nid, BySubject(subject)))
  {
    RevokeConsentSession(db, nid, BySubject(subject))
  }

  /** RevokeSubjectClientConsentSession: the subject's consent sessions with one client. */
  function RevokeSubjectClientConsentSession(db: Db, nid: Nid, subject: string, client: string): (r: Step<()>)
    ensures r.result == Ok(())
    ensures forall f | f in db.flows && f.nid == nid && f.subject == subject && f.clientId == client
                       && f.consentRequestId != "" :: f !in r.db.flows
    ensures forall f | f in db.flows && f.nid == nid && f.clientId != client
                       && (forall g | g in db.flows && g.nid == nid && g.subject == subject && g.clientId == client ::
                             g.consentRequestId != f.consentRequestId) :: f in r.db.flows
    ensures RevokedUnder(db, r.db, nid, ConsentIds(db.flows, nid, BySubjectClient(subject, client)))
  {
    RevokeConsentSession(db, nid, BySubjectClient(subject, client))
  }

  /** RevokeConsentSessionByID: one consent session; an empty id matches nothing,
      and token rows are only reached through a stored flow carrying the id. */
  function RevokeConsentSessionById(db: Db, nid: Nid, consentRequestId: string): (r: Step<()>)
    ensures r.result == Ok(())
    ensures consentRequestId == "" ==> r.db == db
    ensures consentRequestId != "" && (exists f | f in db.flows :: f.nid == nid && f.consentRequestId == consentRequestId) ==>
              && (forall t | t in r.db.access :: !(t.nid == nid && t.requestId == consentRequestId))
              && (forall t | t in r.db.refresh :: !(t.nid == nid && t.requestId == consentRequestId))
              && (forall g | g in r.db.flows :: !(g.nid == nid && g.consentRequestId == consentRequestId))
    ensures RevokedUnder(db, r.db, nid, ConsentIds(db.flows, nid, ByConsentId(consentRequestId)))
    // an id no flow of this network carries reaches no token row
    ensures (forall f | f in db.flows :: !(f.nid == nid && f.consentRequestId == consentRequestId)) ==> r.db == db
  {
    RevokeConsentSession(db, nid, ByConsentId(consentRequestId))
  }

  /** Revoking by id reaches exactly that id, and only when a flow of the network
      carries it. */
  lemma ConsentIdsById(flows: seq<Flow>, nid: Nid, consentRequestId: string)
    ensures ConsentIds(flows, nid, ByConsentId(consentRequestId))
            == if consentRequestId != "" && exists f | f in flows :: f.nid == nid && f.consentRequestId == consentRequestId
               then {consentRequestId} else {}
  {
  }
}

=== FILE: scope_list.dfy ===
/** The `|`-joined encoding of scope and audience lists in grant-session rows:
    `strings.Join(list, "|")` on write and `stringsx.Splitx(column, "|")` on read. */
module ScopeList {

  const Sep: char := '|'

  /** No element of the list contains the separator. */
  predicate SeparatorFree(xs: seq<string>) {
    forall i :: 0 <= i < |xs| ==> Sep !in xs[i]
  }

  /** A list the encoding can carry: separator-free elements, and not the
      one-element list holding the empty string (which encodes like the empty list). */
  predicate Encodable(xs: seq<string>) {
    SeparatorFree(xs) && xs != [""]
  }

  /** strings.Join(xs, "|") */
  function Join(xs: seq<string>): string
    decreases |xs|
  {
    if |xs| == 0 then ""
    else if |xs| == 1 then xs[0]
    else xs[0] + [Sep] + Join(xs[1..])
  }

  /** strings.Split(s, "|"): the pieces between separators; never empty, and
      "" splits into [""]. */
  function Split(s: string): (r: seq<string>)
    ensures |r| >= 1
    decreases |s|
  {
    if |s| == 0 then [""]
    else
      var rest := Split(s[1..]);
      if s[0] == Sep then [""] + rest
      else [[s[0]] + rest[0]] + rest[1..]
  }

  /** stringsx.Splitx(s, "|"): like Split, except that "" gives the empty list. */
  function Splitx(s: string): (r: seq<string>)
    ensures r == [] <==> |s| == 0
  {
    if |s| == 0 then [] else Split(s)
  }

  /** Splitting never produces a piece containing the separator. */
  lemma {:induction false} SplitSeparatorFree(s: string)
    ensures SeparatorFree(Split(s))
    decreases |s|
  {
    if |s| > 0 {
      SplitSeparatorFree(s[1..]);
      var rest := Split(s[1..]);
      if s[0] != Sep {
        assert Sep !in [s[0]] + rest[0];
      }
    }
  }

  /** A separator-free string is a single piece. */
  lemma {:induction false} SplitPiece(a: string)
    requires Sep !in a
    ensures Split(a) == [a]
    decreases |a|
  {
    if |a| > 0 {
      SplitPiece(a[1..]);
      assert [a[0]] + a[1..] == a;
    }
  }

  /** Splitting `a|rest` for a separator-free `a` peels off `a`. */
  lemma {:induction false} SplitPrefix(a: string, rest: string)
    requires Sep !in a
    ensures Split(a + [Sep] + rest) == [a] + Split(rest)
    decreases |a|
  {
    if |a| == 0 {
      assert a + [Sep] + rest == [Sep] + rest;
      assert ([Sep] + rest)[1..] == rest;
    } else {
      var s := a + [Sep] + rest;
      assert s[0] == a[0];
      assert s[1..] == a[1..] + [Sep] + rest;
      SplitPrefix(a[1..], rest);
      assert [a[0]] + a[1..] == a;
    }
  }

  /** Split undoes Join on every non-empty list of separator-free strings. */
  lemma {:induction false} SplitJoin(xs: seq<string>)
    requires |xs| >= 1 && SeparatorFree(xs)
    ensures Split(Join(xs)) == xs
    decreases |xs|
  {
    if |xs| == 1 {
      SplitPiece(xs[0]);
    } else {
      assert SeparatorFree(xs[1..]) by {
        forall i | 0 <= i < |xs| - 1 ensures Sep !in xs[1..][i] {
          assert xs[1..][i] == xs[i + 1];
        }
      }
      SplitJoin(xs[1..]);
      assert Sep !in xs[0];
      SplitPrefix(xs[0], Join(xs[1..]));
      assert [xs[0]] + xs[1..] == xs;
    }
  }

  /** Join undoes Split on every string. */
  lemma {:induction false} JoinSplit(s: string)
    ensures Join(Split(s)) == s
    decreases |s|
  {
    if |s| > 0 {
      JoinSplit(s[1..]);
      var rest := Split(s[1..]);
      if s[0] == Sep {
        assert ([""] + rest)[1..] == rest;
        assert Join([""] + rest) == [Sep] + Join(rest);
        assert [s[0]] + s[1..] == s;
      } else {
        var r := [[s[0]] + rest[0]] + rest[1..];
        if |rest| == 1 {
          assert rest == [rest[0]];
          assert Join(r) == [s[0]] + rest[0];
          assert Join(rest) == rest[0];
        } else {
          assert r[1..] == rest[1..];
          assert Join(rest) == rest[0] + [Sep] + Join(rest[1..]);
          assert Join(r) == ([s[0]] + rest[0]) + [Sep] + Join(rest[1..]);
        }
        assert [s[0]] + s[1..] == s;
      }
    }
  }

  /** The stored column reads back as the list that was written, exactly for the
      encodable lists; in particular the empty list is stored as "". */
  lemma {:induction false} SplitxJoinRoundTrip(xs: seq<string>)
    requires SeparatorFree(xs)
    ensures Join([]) == "" && Splitx("") == []
    ensures Splitx(Join(xs)) == xs <==> Encodable(xs)
  {
    if |xs| >= 1 {
      SplitJoin(xs);
      if xs != [""] {
        if |xs| == 1 {
          assert Join(xs) == xs[0];
          assert xs[0] != "";
        } else {
          assert |Join(xs)| > 0 by {
            assert Join(xs) == xs[0] + [Sep] + Join(xs[1..]);
          }
        }
      }
    }
  }

  /** The list [""] is written as "" and read back as the empty list. */
  lemma EmptyElementIsLost()
    ensures Join([""]) == ""
    ensures Splitx(Join([""])) == []
  {
  }

  /** Every stored column survives a read followed by a write. */
  lemma {:induction false} JoinSplitxRoundTrip(s: string)
    ensures Join(Splitx(s)) == s
    ensures Encodable(Splitx(s))
  {
    if |s| > 0 {
      JoinSplit(s);
      SplitSeparatorFree(s);
    }
  }
}

=== FILE: seq_filter.dfy ===
/** Row selection over a table held as a sequence: `WHERE keep(row)`, in
    storage order. */
module SeqFilter {
  import opened Errors

  /** The rows of s that satisfy keep, in their original order. */
  function Filter<T>(s: seq<T>, keep: T -> bool): (r: seq<T>)
    ensures forall x | x in r :: x in s && keep(x)
    ensures forall x | x in s && keep(x) :: x in r
    ensures |r| <= |s|
    decreases |s|
  {
    if |s| == 0 then []
    else if keep(s[0]) then [s[0]] + Filter(s[1..], keep)
    else Filter(s[1..], keep)
  }

  /** a is obtained from b by dropping elements, keeping the rest in order. */
  predicate Subsequence<T(==)>(a: seq<T>, b: seq<T>)
    decreases |b|
  {
    |a| == 0 || (|b| > 0 && ((a[0] == b[0] && Subsequence(a[1..], b[1..])) || Subsequence(a, b[1..])))
  }

  lemma {:induction false} FilterIsSubsequence<T>(s: seq<T>, keep: T -> bool)
    ensures Subsequence(Filter(s, keep), s)
    decreases |s|
  {
    if |s| > 0 {
      FilterIsSubsequence(s[1..], keep);
      var rest := Filter(s[1..], keep);
      if keep(s[0]) {
        assert ([s[0]] + rest)[1..] == rest;
      }
    }
  }

  lemma {:induction false} SubsequenceOfItself<T>(s: seq<T>)
    ensures Subsequence(s, s)
    decreases |s|
  {
    if |s| > 0 {
      SubsequenceOfItself(s[1..]);
    }
  }

  /** Dropping elements twice is dropping elements once. */
  lemma {:induction false} SubsequenceTransitive<T>(a: seq<T>, b: seq<T>, c: seq<T>)
    requires Subsequence(a, b) && Subsequence(b, c)
    ensures Subsequence(a, c)
    decreases |c|
  {
    if |a| > 0 {
      if b[0] == c[0] && Subsequence(b[1..], c[1..]) {
        if a[0] == b[0] && Subsequence(a[1..], b[1..]) {
          SubsequenceTransitive(a[1..], b[1..], c[1..]);
        } else {
          SubsequenceTransitive(a, b[1..], c[1..]);
        }
      } else {
        SubsequenceTransitive(a, b, c[1..]);
      }
    }
  }

  /** A subsequence holds only elements of the sequence it comes from. */
  lemma {:induction false} SubsequenceMembers<T>(a: seq<T>, b: seq<T>)
    requires Subsequence(a, b)
    ensures forall x | x in a :: x in b
    decreases |b|
  {
    if |a| > 0 {
      if a[0] == b[0] && Subsequence(a[1..], b[1..]) {
        SubsequenceMembers(a[1..], b[1..]);
        assert forall x | x in a :: x == a[0] || x in a[1..];
      } else {
        SubsequenceMembers(a, b[1..]);
      }
    }
  }

  /** Elements with pairwise distinct keys keep them distinct in a subsequence:
      deleting rows never breaks a primary key. */
  lemma {:induction false} SubsequenceKeepsKeysDistinct<T, K>(a: seq<T>, b: seq<T>, key: T -> K)
    requires Subsequence(a, b)
    requires forall i, j | 0 <= i < j < |b| :: key(b[i]) != key(b[j])
    ensures forall i, j | 0 <= i < j < |a| :: key(a[i]) != key(a[j])
    decreases |b|
  {
    if |a| > 0 {
      assert forall i, j | 0 <= i < j < |b[1..]| :: key(b[1..][i]) != key(b[1..][j]) by {
        forall i, j | 0 <= i < j < |b[1..]| ensures key(b[1..][i]) != key(b[1..][j]) {
          assert b[1..][i] == b[i + 1] && b[1..][j] == b[j + 1];
        }
      }
      if a[0] == b[0] && Subsequence(a[1..], b[1..]) {
        SubsequenceKeepsKeysDistinct(a[1..], b[1..], key);
        SubsequenceMembers(a[1..], b[1..]);
        forall i, j | 0 <= i < j < |a| ensures key(a[i]) != key(a[j]) {
          if i == 0 {
            assert a[j] == a[1..][j - 1] && a[j] in b[1..];
            var k :| 0 <= k < |b[1..]| && b[1..][k] == a[j];
            assert b[k + 1] == a[j];
          } else {
            assert a[i] == a[1..][i - 1] && a[j] == a[1..][j - 1];
          }
        }
      } else {
        SubsequenceKeepsKeysDistinct(a, b[1..], key);
      }
    }
  }

  /** The first row satisfying p, if any. */
  function First<T>(s: seq<T>, p: T -> bool): (r: Option<T>)
    ensures r.Some? <==> exists x | x in s :: p(x)
    ensures r.Some? ==> r.value in s && p(r.value)
    decreases |s|
  {
    if |s| == 0 then None
    else if p(s[0]) then Some(s[0])
    else First(s[1..], p)
  }
}
